=== FILE: README.md ===
# go-serial session core, modelled in Dafny

This project models the Go logic of two cgo bindings to libserialport:
package `serial` (serial.go) and package `serialport` (serialport.go).
Most of their methods forward a single call to libserialport. The model
covers the logic the bindings add themselves:

- `errmsg`, which maps libserialport status codes to the four error values;
- `newSerialPort`, `PortByName` and `ListPorts`: wrapping native ports, walking
  the null-terminated port list, and failing at the first copy or allocation error;
- the lifecycle of the native `sp_port` / `sp_port_config` pair: `open`,
  `OpenWithMode`, `Close` and the `free` finalizer;
- the configuration cache `*c`, the setters that write it, and `SetBaudrate`,
  which goes to the port instead;
- option resolution in `open`, and the two `ApplyRawConfig` variants;
- the deadline dispatch of `Read` / `Write` in serial.go, including Go's saturating
  `time.Sub`, its truncating `int64` division and the `C.uint` conversion of the
  timeout.

libserialport is an abstract provider. Every operation takes what the
library answers as parameters: status codes, counts, the device
configuration, new handles. It returns a Go-shaped result together with
`calls`, the ordered list of external calls it made (`Provider.Call`). The
"at most once" and "never calls" properties are stated over these call
lists. The wall clock is an integer nanosecond parameter `now`. The
numeric constants are libserialport.h's values, because that header is not
part of this model: `SP_OK` = 0, `SP_ERR_ARG`..`SP_ERR_SUPP` = -1..-4,
`MODE_READ | MODE_WRITE` = 3, every "none/off/ignore/disabled" value = 0,
`SP_BUF_INPUT/OUTPUT/BOTH` = 1/2/3.

Modules: `Wrappers` (Option), `Provider` (the libserialport interface, the
configuration record, the call log), `Status` (errors and `errmsg`),
`Native` (the state and operations the two packages share word for word),
`Registry` (`PortByName`, `ListPorts`), `Io` (deadline arithmetic and count
handling), `Serial` (serial.go), `Serialport` (serialport.go).

What the code does, where it is easy to assume otherwise:

- `Close` always calls `sp_close` and clears `opened`, on a closed port too; a second `Close` is not a no-op.
- The `Options.Baudrate` doc comment (serial.go:57) says the default is 9600, but `open` only writes 9600 into its local copy of the options when the rate is 0 (serial.go:348-353). No baud-rate setter runs, so the port keeps the device's rate.
- There is no separate "applied" configuration. Getters read the same cached `sp_port_config` the setters write, whether or not `ApplyConfig` has run. The getter doc comments (serial.go:399-400 and the others) say the port must be opened, but nothing checks that.
- `SetFlowControl` rewrites the pin settings: libserialport's `sp_set_config_flowcontrol` puts RTS/CTS or DTR/DSR under flow control for the hardware combinations, ignores CTS and DSR otherwise, switches RTS or DTR from flow control to on otherwise, and enables XON/XOFF both ways only for the software combination. So when its flow-control setter succeeds, `open` never leaves the device's CTS, DSR or XON/XOFF settings in place (it ignores that setter's error, and a failing setter leaves them as the device had them), and serial.go's raw mode changes the pins although it calls no pin setter. The rule comes from libserialport's implementation, which is not part of this model; the constants come from libserialport.h.
- An unknown negative status code maps to nil, not to a system error. An unknown negative transfer count (below `SP_ERR_SUPP`) therefore becomes `(0, nil)`; the counts -1..-4 become `(0, errmsg(c))`.
- A blocking transfer that times out with nothing moved is a zero-count success. No timeout error exists.
- A deadline 2^32 ms (about 49.7 days) or more ahead selects the blocking call. The timeout then wraps modulo 2^32 in the `C.uint` conversion (`Io.FarDeadlineWrapsTimeout`).
- With a deadline set, `Read` and `Write` take `&b[0]` (serial.go:594, 598, 627, 631), so an empty buffer panics with an index out of range, although `io.Reader` and `io.Writer` callers may pass one. The model returns `IndexPanic` for it.

## Model

| member | source | states |
|---|---|---|
| Status.ErrMsg | serial.go:161-174 | total over every code; an error exactly for ARG, FAIL, MEM, SUPP, each error naming the code it came from; nil for OK, positives and unknown negatives |
| Status.ErrMsgInverse | serialport.go:134-147 | `errmsg(code) = e` iff `e` is the error of `code`; the mapping is one-to-one on the four codes |
| Status.UnknownNegativeIsNil | serial.go:162-173 | a negative code below SUPP yields nil |
| Provider.FlowControlExpansion | serial.go:112-115 | a pin pair is under flow control iff its hardware combination is chosen; XON/XOFF is enabled both ways iff the software combination is; CTS, DSR and XON/XOFF keep no other value; framing is untouched; choosing the same combination twice is choosing it once |
| Native.NewSerialPort | serial.go:176-185 | one `sp_new_config` call; a port exactly when its error is nil, holding both handles and not opened |
| Native.Free | serial.go:187-201 | closes `p` first iff opened, then frees the port iff `p` is non-nil, then the config iff `c` is non-nil, and makes no other call; frees only the handles it holds; afterwards nil, nil, not opened |
| Native.FreeIdempotent | serialport.go:160-174 | a second `free` makes no call and changes nothing |
| Native.FreeAfterCloseDoesNotClose | serial.go:188-201 | `free` after `Close` issues no `sp_close` |
| Native.Close | serial.go:392-397 | always exactly one `sp_close` on the current pointer; not opened afterwards whatever the result; the error is `errmsg` of the answer |
| Native.Set | serial.go:409-555 | `SetBaudrate` calls the port and leaves the state untouched; a field setter writes only its own cached field; `SetFlowControl` rewrites the five pin fields by libserialport's expansion and nothing else; the cache changes only on `SP_OK`; the error is `errmsg` of the answer |
| Native.Get | serial.go:399-540 | reads the cached field; 0 and the error when `errmsg` of the answer is not nil |
| Native.SetBaudrateNotObserved | serialport.go:329-343 | `Baudrate()` after `SetBaudrate` returns what it returned before |
| Native.SetThenGet | serial.go:415-430 | a successful field setter other than `SetBaudrate` is seen by its own getter and by no other |
| Native.FlowControlThenGet | serial.go:466-555 | after a successful `SetFlowControl`, the framing getters are unchanged and each pin getter reports libserialport's expansion of its previous value |
| Native.ApplyConfig | serial.go:556-559 | hands the current cache to `sp_set_config`; the state is unchanged |
| Native.SetAll | serial.go:355-375 | the setters run in order, one call each, errors ignored, handles and `opened` untouched |
| Native.SetAllWrites | serial.go:356-375 | with all setters succeeding and the flow-control setter last, each field holds its own setting's value (baud excepted) or its old value, then the flow-control expansion of it |
| Native.RunSettersCalls | serialport.go:492-519 | the setters called are exactly those up to and including the first one whose error is not nil |
| Native.RunSettersError | serialport.go:492-519 | the error returned is the first failing setter's, or nil when every setter succeeds |
| Native.ApplyRaw | serial.go:561-576 | setters then `sp_set_config` of the resulting cache only if none failed |
| Native.ApplyRawStopsBeforeApply | serialport.go:493-520 | a failing setter means no `sp_set_config` call |
| Native.ApplyRawAllOk | serialport.go:492-521 | with every setter succeeding the raw mode reaches apply and leaves each field at the value `SetAllWrites` resolves, flow-control expansion included |
| Registry.PortByName | serial.go:203-216 | a lookup error returns nil with that error after one call; otherwise the error is `errmsg` of `sp_new_config`, after exactly the lookup and the allocation, and a fresh port holding both handles is returned iff that error is nil |
| Registry.NullIndex | serial.go:233-236 | the count is the index of the first null entry: all entries before it are non-null |
| Registry.ListPorts | serial.go:218-253 | a non-OK list code gives nil with `errmsg` of it (nil for unknown codes); else one port per entry before the terminator, in list order; else nil with the first failing reply's error (the copy's, else the allocation's), after copying exactly the ports before it and that one; the list is freed last on every path after listing |
| Registry.CopyPorts | serial.go:238-250 | the first `count` ports copied and wrapped in order, one port per reply, iff every reply succeeds; otherwise the first failing reply's error, with the calls stopping right after it |
| Serial.ListPorts | serial.go:229-236 | the terminator must lie within the `1 << 15` array; the ports, the first failure's error and the call list exactly as `Registry.ListPorts` states, the list freed last |
| Serialport.ListPorts | serialport.go:202-207 | the terminator must lie within the `1 << 30` array; the ports, the first failure's error and the call list exactly as `Registry.ListPorts` states, the list freed last |
| Io.Saturate | serial.go:586 | the remaining duration is the exact difference, clamped to the `int64` range |
| Io.TruncDiv | serial.go:587 | division truncating toward zero: `q*d <= a < (q+1)*d` for `a >= 0` and `(q-1)*d < a <= q*d` for `a < 0` |
| Io.CUint | serial.go:598 | the timeout handed over is below 2^32 and congruent to the milliseconds modulo 2^32; unchanged below 2^32 |
| Io.Dispatch | serial.go:579-599 | unbounded iff no deadline; non-blocking iff the deadline is less than 1 ms ahead; otherwise blocking with `millis >= 1` and `millis*1e6 <= remaining < (millis+1)*1e6` |
| Io.BlockingTimeoutExact | serial.go:585-599 | below 2^32 ms the timeout is the whole milliseconds left, never rounded up |
| Io.FarDeadlineWrapsTimeout | serial.go:596-598 | a deadline 2^32 ms ahead selects the blocking call but hands over a zero timeout |
| Io.FromCount | serial.go:601-609 | a negative count gives `(0, errmsg(c))`, which is `(0, nil)` for a count `errmsg` does not know; any other count, zero included, is a success with that count |
| Io.UnknownNegativeCountIsSilent | serial.go:634-639 | a negative count `errmsg` does not know gives zero bytes and no error |
| Serial.OpenSettings | serial.go:348-375 | the setters `open` runs name each field once; a baud-rate setter is among them iff the baud rate is not 0 |
| Serial.OpenSettingsResolve | serial.go:348-375 | the setters request data bits 8 and stop bits 1 by default, parity and flow control as given, RTS and DTR off, and no CTS/DSR/XON-XOFF setter of their own |
| Serial.OpenPort | serial.go:331-390 | opens with `opt.Mode` or READ\|WRITE; an `sp_open` failure returns at once with the port unchanged; otherwise the error is the get-config error, else the handle error, else nil; pointers and deadlines kept |
| Serial.OpenPortOpened | serial.go:337-389 | the port is marked opened exactly when `open` succeeds; an `sp_open` failure leaves the flag as it was |
| Serial.OpenPortReleases | serial.go:337-389 | `Close` is called exactly when `sp_open` succeeded and get-config or the handle failed; nothing is ever freed |
| Serial.OpenResolvesOptions | serial.go:342-378 | after a successful open with successful setters: data bits 8 and stop bits 1 by default, parity as given, the device's baud rate; RTS/CTS under flow control iff RTSCTS, else RTS off and CTS ignored; DTR/DSR likewise for DTRDSR; XON/XOFF both ways iff XONXOFF, else disabled |
| Serial.ConfigureSetsBaudrate | serial.go:348-353 | the setter phase of `open` calls `sp_set_baudrate` exactly when the requested baud rate is not 0 |
| Serial.OpenSetsBaudrateOnlyWhenGiven | serial.go:348-353 | `sp_set_baudrate` is called iff open and get-config succeeded and the baud rate is not 0 |
| Serial.OpenIgnoresSetterErrors | serial.go:352-378 | setter and apply answers change neither `open`'s error nor whether the port is opened |
| Serial.Open | serial.go:313-324 | a lookup failure returns before any open; an allocation failure returns its error; otherwise the error, the calls and the port are `open`'s on the freshly allocated port; a port is returned iff every step succeeds, and it is opened |
| Serial.ApplyRawConfig | serial.go:561-576 | data bits, parity, stop bits, flow control in order; the first error is returned without applying; otherwise the cache is applied |
| Serial.RawConfigWrites | serial.go:562-575 | with successful setters, 8-N-1; CTS and DSR ignored and XON/XOFF disabled by the flow-control setter; RTS and DTR switched on if they were under flow control, else kept; the baud rate kept |
| Serial.RawValue | serial.go:562-575 | the raw mode's field setters name only data bits, parity and stop bits, and it chooses no flow control |
| Serial.Read | serial.go:578-610 | the call the read deadline selects; the file's result with no deadline; otherwise the libserialport count rule; a panic exactly when a deadline is set and the buffer is empty |
| Serial.Write | serial.go:612-640 | as `Read` for the write deadline, handing the buffer's bytes over |
| Serial.SetDeadline | serial.go:658-663 | both deadlines set; nothing else changes; always nil |
| Serial.SetReadDeadline | serial.go:665-669 | only the read deadline changes; always nil |
| Serial.SetWriteDeadline | serial.go:671-675 | only the write deadline changes; always nil |
| Serial.DeadlinesIndependent | serial.go:581-619 | changing one direction's deadline never changes the other direction's outcome, panics included |
| Serial.InputWaiting | serial.go:677-684 | the count, or 0 with `errmsg` of a negative answer |
| Serial.OutputWaiting | serial.go:686-693 | the count, or 0 with `errmsg` of a negative answer |
| Serial.FlushInput | serial.go:706-708 | one `sp_flush` that discards the input buffer only; the error is `errmsg` of the answer |
| Serial.FlushOutput | serial.go:711-713 | one `sp_flush` that discards the output buffer only; the error is `errmsg` of the answer |
| Serial.Flush | serial.go:701-703 | one `sp_flush` that discards both buffers; the error is `errmsg` of the answer |
| Serial.Sync | serial.go:696-698 | `Sync` is `Flush`: it discards both buffers and never drains |
| Serial.Drain | serial.go:716-718 | one `sp_drain`, which discards no buffer; the error is `errmsg` of the answer |
| Serial.FlushPartition | serial.go:696-718 | `Flush` discards exactly what `FlushInput` and `FlushOutput` discard between them, those two are disjoint, and only `Drain` waits |
| Serial.ReleasedAtMostOnce | serial.go:176-201 | over any sequence of open, close, free, set, apply, raw and deadline operations, each native object is freed at most once |
| Serialport.OpenWithMode | serialport.go:304-320 | opens with the caller's flags; no `Close` after an `sp_open` failure; `Close` exactly on a get-config or handle failure; opened exactly when all three succeed; no setter is called |
| Serialport.Open | serialport.go:284-302 | lookup, then `OpenWithMode(READ\|WRITE)`; a lookup failure returns before any open; an allocation failure returns its error; otherwise the error, the calls and the port are `OpenWithMode`'s on the freshly allocated port; a port iff everything succeeds |
| Serialport.ApplyRawConfig | serialport.go:491-521 | the nine setters in order; the first error is returned without applying; otherwise the cache is applied |
| Serialport.RawConfigWrites | serialport.go:492-519 | with successful setters, 8-N-1, RTS and DTR off, CTS and DSR ignored, XON/XOFF disabled (the explicit pin setters run before the flow-control setter, which keeps these values), baud rate untouched |
| Serialport.RawValue | serialport.go:492-519 | the raw mode's field setters name every field except the baud rate, each with its raw value, and it chooses no flow control |
| Serialport.RawConfigApplied | serialport.go:517-520 | with successful setters, `sp_set_config` receives the configuration they leave |
| Serialport.ReleasedAtMostOnce | serialport.go:149-174 | over any sequence of open, close, free, set, apply and raw operations, each native object is freed at most once |

## Left out

- Metadata getters (`Name`, `Description`, `Transport`, USB and Bluetooth getters), `LocalAddr`, `RemoteAddr` and `Addr`: pure pass-through to libserialport. The `sp_get_port_name` call `open` makes is recorded but its result is not modelled.
- `os.File` I/O. On the deadline-free path, `Read` and `Write` return a caller-supplied `FileOutcome`. `WriteString` in serial.go always goes through the file. `Read`, `Write`, `WriteString` and `Sync` in serialport.go only forward to the file. None has logic of its own.
- The `f` and `fd` fields: only the `sp_get_port_handle` result code matters to the logic.
- What libserialport does internally, apart from the flow-control expansion described above. This covers the contents of a new `sp_port_config` (supplied as `initial`), what `sp_get_config` reads (supplied as `device`), the range checks its setters make (their answer is a parameter), and the hardware effects of `sp_set_config` and `sp_set_baudrate`.
- SetAllWrites: stated only for setter sequences whose flow-control setter, if any, comes last. Every sequence the bindings run (`open` and both raw modes) ends with it.
- ApplyRawAllOk: the same restriction as `SetAllWrites`, for the same reason.
- Native.Set: the cache is written only when libserialport answers `SP_OK`, which is the only success answer its setters give. The `C.int` truncation of a Go `int` setter argument to 32 bits is not modelled.
- The wall clock and time zones: `time.Now()` is the parameter `now`, and a `time.Time` is an integer nanosecond instant or the zero time.
- The GC finalizer registration: `free` is an explicit operation. Its timing is a runtime concern.
- `reflect.SetLen` on `Read`'s local slice header: the caller cannot observe it.
- Which bytes a read stores into the buffer: only the count is modelled.
- Serial.ListPorts and Serialport.ListPorts: a list whose terminator does not lie within the fixed array (`1 << 15` entries in serial.go, `1 << 30` in serialport.go) makes the Go code panic on the out-of-range index. The model requires the terminator within the bound and does not model that panic.
- Concurrency, including a `Close` racing an in-flight blocking transfer.
- The enum constant tables beyond the values the logic uses.
- listports/listports.go and listports/main.go: command-line demos that only log. listports.go also uses methods these packages do not define.

=== FILE: io.dfy ===
/**
  The deadline arithmetic of `Read` and `Write` in serial.go, and the way
  both turn a libserialport transfer count into Go results.

  Times are integer nanoseconds; the wall clock is a parameter (`now`).
 */
module Io {
  import opened Wrappers
  import opened Provider
  import opened Status

  const MaxInt64: int := 0x7fff_ffff_ffff_ffff
  const MinInt64: int := -0x8000_0000_0000_0000
  const NanosPerMilli: int := 1_000_000

  /** A `time.Time` deadline: the zero time (no deadline) or an instant. */
  datatype Deadline = Zero | At(ns: int)

  /**
    `time.Duration` arithmetic: `t.Sub(u)` saturates to the `int64` range.
    The result is `x` itself, or the bound nearest to it when `x` is outside.
   */
  function Saturate(x: int): (r: int)
    ensures MinInt64 <= r <= MaxInt64
    ensures r < x ==> r == MaxInt64
    ensures r > x ==> r == MinInt64
  {
    if x > MaxInt64 then MaxInt64 else if x < MinInt64 then MinInt64 else x
  }

  /**
    Go's integer division, which truncates toward zero (Dafny's `/` is
    Euclidean and differs for a negative dividend).
   */
  function TruncDiv(a: int, d: int): (q: int)
    requires d > 0
    ensures a >= 0 ==> 0 <= q && q * d <= a < q * d + d
    ensures a < 0 ==> q <= 0 && q * d - d < a <= q * d
  {
    if a >= 0 then
      FloorBounds(a, d);
      a / d
    else
      FloorBounds(-a, d);
      NegatedProduct((-a) / d, d);
      -((-a) / d)
  }

  /** Dafny's `/` on a non-negative dividend rounds down. */
  lemma FloorBounds(a: nat, d: int)
    requires d > 0
    ensures 0 <= a / d && (a / d) * d <= a < (a / d) * d + d
  {
    assert a == (a / d) * d + a % d;
  }

  lemma NegatedProduct(m: int, d: int)
    ensures (-m) * d == -(m * d)
  {
  }

  /** Go's `C.uint(x)` for an `int64`: the low 32 bits. */
  function CUint(x: int): (r: nat)
    ensures r < 0x1_0000_0000
    ensures (x - r) % 0x1_0000_0000 == 0
    ensures 0 <= x < 0x1_0000_0000 ==> r == x
  {
    x % 0x1_0000_0000
  }

  /** The three ways a transfer can be issued. */
  datatype Plan = Unbounded | NonBlocking | Blocking(millis: int)

  /** The time left until the deadline, as `deadline.Sub(time.Now())`. */
  function Remaining(deadline: int, now: int): int {
    Saturate(deadline - now)
  }

  /**
    The dispatch of `Read` and `Write`: no deadline means the unbounded file
    transfer; otherwise `millis` is the remaining time in whole milliseconds,
    truncated; `millis <= 0` gives a non-blocking call, anything else a
    blocking call with that timeout.
   */
  function Dispatch(d: Deadline, now: int): (r: Plan)
    ensures r.Unbounded? <==> d.Zero?
    ensures d.At? ==> (r.NonBlocking? <==> d.ns - now < NanosPerMilli)
    ensures r.Blocking? ==>
              1 <= r.millis && r.millis * NanosPerMilli <= Remaining(d.ns, now) < (r.millis + 1) * NanosPerMilli
  {
    match d
    case Zero => Unbounded
    case At(t) =>
      var millis := TruncDiv(Remaining(t, now), NanosPerMilli);
      if millis <= 0 then NonBlocking else Blocking(millis)
  }

  /**
    The blocking timeout is never rounded up: when the remaining time is
    below 2^32 ms it is exactly the whole milliseconds left.
   */
  lemma BlockingTimeoutExact(t: int, now: int)
    requires NanosPerMilli <= t - now < 0x1_0000_0000 * NanosPerMilli
    ensures Dispatch(At(t), now).Blocking?
    ensures var m := Dispatch(At(t), now).millis;
            CUint(m) == m && m * NanosPerMilli <= t - now < (m + 1) * NanosPerMilli
  {
  }

  /**
    A deadline 2^32 ms (about 49.7 days) ahead picks the blocking call, but
    the conversion to a C `unsigned int` hands libserialport a zero timeout.
   */
  lemma FarDeadlineWrapsTimeout()
    ensures Dispatch(At(0x1_0000_0000 * NanosPerMilli), 0) == Blocking(0x1_0000_0000)
    ensures CUint(0x1_0000_0000) == 0
  {
  }

  /** The direction of a transfer. */
  datatype Direction = Inbound | Outbound

  /** The single call a transfer makes under each plan. */
  function TransferCall(dir: Direction, b: seq<Byte>, plan: Plan): Call {
    match plan
    case Unbounded => if dir.Inbound? then FileRead(|b|) else FileWrite(b)
    case NonBlocking => if dir.Inbound? then SpNonblockingRead(|b|) else SpNonblockingWrite(b)
    case Blocking(m) => if dir.Inbound? then SpBlockingRead(|b|, CUint(m)) else SpBlockingWrite(b, CUint(m))
  }

  /** What `os.File` answers on the unbounded path (opaque to the model). */
  datatype FileOutcome = FileOutcome(n: int, err: Option<Error>)

  /** The result of a transfer or a queue query: the count, the error, the calls made. */
  datatype Transferred = Transferred(n: int, err: Option<Error>, calls: seq<Call>)

  /**
    How a libserialport count becomes Go results: a negative count is an
    error code and gives `(0, errmsg(c))`; any other count, zero included,
    is a success.
   */
  function FromCount(c: Int32, calls: seq<Call>): (r: Transferred)
    ensures r.calls == calls
    ensures r.n >= 0
    ensures c >= 0 <==> r.n == c && r.err.None?
    ensures c < 0 ==> r.n == 0 && r.err == ErrMsg(c)
  {
    if c < 0 then Transferred(0, ErrMsg(c), calls) else Transferred(c, None, calls)
  }

  /** A negative count `errmsg` does not know is reported as zero bytes and no error. */
  lemma UnknownNegativeCountIsSilent(c: Int32)
    requires c < SpErrSupp
    ensures FromCount(c, []) == Transferred(0, None, [])
  {
  }

  /**
    How `Read` or `Write` ends: it returns, or the Go runtime panics on an
    index out of range before any call is made.
   */
  datatype Completion = Returned(result: Transferred) | IndexPanic

  /**
    One transfer under a deadline. `file` is what `os.File` answers when no
    deadline is set; `c` is what libserialport answers otherwise. With a
    deadline set the Go code takes `&b[0]`, which panics on an empty buffer.
   */
  function Transfer(dir: Direction, d: Deadline, now: int, b: seq<Byte>, file: FileOutcome, c: Int32): (r: Completion)
  {
    var plan := Dispatch(d, now);
    if plan.Unbounded? then Returned(Transferred(file.n, file.err, [TransferCall(dir, b, plan)]))
    else if |b| == 0 then IndexPanic
    else Returned(FromCount(c, [TransferCall(dir, b, plan)]))
  }
}

=== FILE: native.dfy ===
/**
  The native half of a port, shared by `serial.Port` and
  `serialport.SerialPort`: the `sp_port` pointer `p`, the `sp_port_config`
  pointer `c` (either may be nil), the contents of `*c`, and the `opened`
  flag. The operations here are written identically in both packages:
  `newSerialPort`, `free`, `Close`, the configuration setters and getters,
  and `ApplyConfig`, together with the setter sequences `open` and
  `ApplyRawConfig` are built from.
 */
module Native {
  import opened Wrappers
  import opened Provider
  import opened Status

  datatype State = State(p: Option<Handle>, c: Option<Handle>, cache: Config, isOpen: bool)

  /** A freshly wrapped port: both native objects allocated, not yet open. */
  predicate Fresh(n: State) {
    n.p.Some? && n.c.Some? && !n.isOpen
  }

  /** The outcome of one operation: the new state, the Go `error`, the calls made. */
  datatype Step = Step(state: State, err: Option<Error>, calls: seq<Call>)

  /** The outcome of a constructor: a port or nil, an error or nil, the calls made. */
  datatype Created = Created(port: Option<State>, err: Option<Error>, calls: seq<Call>)

  /** The outcome of a getter: the value (0 on error), the error, the calls made. */
  datatype Reading = Reading(value: int, err: Option<Error>, calls: seq<Call>)

  /**
    `newSerialPort`: wraps the port `p` and allocates its configuration with
    `sp_new_config`, which answers `code` and the new object `config` whose
    contents are `initial`. The port is produced exactly when `errmsg` of the
    code is nil; on failure `p` is not freed.
   */
  function NewSerialPort(p: Handle, code: int, config: Handle, initial: Config): (r: Created)
    ensures r.calls == [SpNewConfig]
    ensures r.port.Some? <==> ErrMsg(code).None?
    ensures r.port.Some? ==> r.err.None? && Fresh(r.port.value)
    ensures r.port.Some? ==> r.port.value.p == Some(p) && r.port.value.c == Some(config)
    ensures r.port.None? ==> r.err == ErrMsg(code)
  {
    var err := ErrMsg(code);
    if err.Some? then Created(None, err, [SpNewConfig])
    else Created(Some(State(Some(p), Some(config), initial, false)), None, [SpNewConfig])
  }

  /** The calls `free` makes: `sp_close` when open, then each non-nil object freed. */
  function FreeCalls(n: State): seq<Call> {
    (if n.isOpen then [SpClose(n.p)] else [])
    + (if n.p.Some? then [SpFreePort(n.p.value)] else [])
    + (if n.c.Some? then [SpFreeConfig(n.c.value)] else [])
  }

  /** How many releases of kind `k` `free` issues from state `n`. */
  function FreeReleases(n: State, k: Release): nat {
    match k
    case ClosePort => if n.isOpen then 1 else 0
    case FreePort => if n.p.Some? then 1 else 0
    case FreeConfig => if n.c.Some? then 1 else 0
  }

  lemma FreeCallsCount(n: State, k: Release)
    ensures Count(FreeCalls(n), k) == FreeReleases(n, k)
  {
    var closing: seq<Call> := if n.isOpen then [SpClose(n.p)] else [];
    var freeing: seq<Call> := if n.p.Some? then [SpFreePort(n.p.value)] else [];
    var dropping: seq<Call> := if n.c.Some? then [SpFreeConfig(n.c.value)] else [];
    CountAppend(closing, freeing, k);
    CountAppend(closing + freeing, dropping, k);
    CountSingle(SpClose(n.p));
    if n.p.Some? {
      CountSingle(SpFreePort(n.p.value));
    }
    if n.c.Some? {
      CountSingle(SpFreeConfig(n.c.value));
    }
  }

  lemma FreeCallsFreed(n: State)
    ensures forall h :: SpFreePort(h) in FreeCalls(n) ==> n.p == Some(h)
    ensures forall h :: SpFreeConfig(h) in FreeCalls(n) ==> n.c == Some(h)
  {
  }

  /**
    `free`: closes the port only when it is open, frees each native object
    only when its pointer is non-nil, then clears all three.
   */
  function Free(n: State): (r: Step)
    ensures r.err.None?
    ensures r.state.p.None? && r.state.c.None? && !r.state.isOpen
    ensures r.state.cache == n.cache
    ensures Count(r.calls, ClosePort) == (if n.isOpen then 1 else 0)
    ensures Count(r.calls, FreePort) == (if n.p.Some? then 1 else 0)
    ensures Count(r.calls, FreeConfig) == (if n.c.Some? then 1 else 0)
    ensures forall h :: SpFreePort(h) in r.calls ==> n.p == Some(h)
    ensures forall h :: SpFreeConfig(h) in r.calls ==> n.c == Some(h)
    ensures |r.calls| == FreeReleases(n, ClosePort) + FreeReleases(n, FreePort) + FreeReleases(n, FreeConfig)
    ensures n.isOpen ==> r.calls[0] == SpClose(n.p)
    ensures n.p.Some? ==> r.calls[FreeReleases(n, ClosePort)] == SpFreePort(n.p.value)
    ensures n.c.Some? ==> r.calls[|r.calls| - 1] == SpFreeConfig(n.c.value)
  {
    FreeCallsCount(n, ClosePort);
    FreeCallsCount(n, FreePort);
    FreeCallsCount(n, FreeConfig);
    FreeCallsFreed(n);
    Step(State(None, None, n.cache, false), None, FreeCalls(n))
  }

  /** A second `free` does nothing at all, and changes nothing. */
  lemma FreeIdempotent(n: State)
    ensures Free(Free(n).state).calls == []
    ensures Free(Free(n).state).state == Free(n).state
  {
  }

  /** `free` after `Close` never closes the port a second time. */
  lemma FreeAfterCloseDoesNotClose(n: State, code: int)
    ensures Count(Free(Close(n, code).state).calls, ClosePort) == 0
  {
  }

  /**
    `Close`: always calls `sp_close` on the current pointer, whatever the
    state, and leaves the port not opened whatever the result.
   */
  function Close(n: State, code: int): (r: Step)
    ensures r.calls == [SpClose(n.p)]
    ensures !r.state.isOpen
    ensures r.state.p == n.p && r.state.c == n.c && r.state.cache == n.cache
    ensures r.err == ErrMsg(code)
  {
    Step(n.(isOpen := false), ErrMsg(code), [SpClose(n.p)])
  }

  /**
    The configuration setters. `SetBaudrate` calls `sp_set_baudrate` on the
    port and leaves the cached configuration alone; every other setter calls
    `sp_set_config_*` on the cached configuration, which changes only when
    libserialport answers `SP_OK`: a field setter writes its own field, and
    `SetFlowControl` rewrites the pin fields as libserialport expands the
    combination.
   */
  function Set(n: State, s: Setting, code: int): (r: Step)
    ensures r.calls == [SetterCall(s)]
    ensures r.err == ErrMsg(code)
    ensures r.state.p == n.p && r.state.c == n.c && r.state.isOpen == n.isOpen
    ensures code != SpOk || (s.Setting? && s.field == Baudrate) ==> r.state == n
    ensures s.Setting? ==> forall g :: g != s.field ==> r.state.cache.Get(g) == n.cache.Get(g)
    ensures s.Setting? && s.field != Baudrate && code == SpOk ==> r.state.cache.Get(s.field) == s.value
    ensures s.FlowControl? && code == SpOk ==>
              forall g :: r.state.cache.Get(g) == FlowResult(g, s.combination, n.cache.Get(g))
  {
    match s
    case Setting(f, v) =>
      if f == Baudrate then Step(n, ErrMsg(code), [SpSetBaudrate(v)])
      else
        var cache := if code == SpOk then n.cache.With(f, v) else n.cache;
        Step(n.(cache := cache), ErrMsg(code), [SpSetConfigField(f, v)])
    case FlowControl(v) =>
      var cache := if code == SpOk then n.cache.WithFlowControl(v) else n.cache;
      Step(n.(cache := cache), ErrMsg(code), [SpSetConfigFlowControl(v)])
  }

  /**
    The configuration getters: they read the cached configuration, and
    report 0 with the error when `errmsg` of libserialport's answer is not
    nil.
   */
  function Get(n: State, f: Field, code: int): (r: Reading)
    ensures r.calls == [SpGetConfigField(f)]
    ensures r.err == ErrMsg(code)
    ensures r.err.Some? ==> r.value == 0
    ensures r.err.None? ==> r.value == n.cache.Get(f)
  {
    var err := ErrMsg(code);
    if err.Some? then Reading(0, err, [SpGetConfigField(f)])
    else Reading(n.cache.Get(f), None, [SpGetConfigField(f)])
  }

  /** `SetBaudrate` is never observed by `Baudrate()`, whatever either call answers. */
  lemma SetBaudrateNotObserved(n: State, v: int, setCode: int, getCode: int)
    ensures Get(Set(n, Setting(Baudrate, v), setCode).state, Baudrate, getCode).value
         == Get(n, Baudrate, getCode).value
  {
  }

  /**
    Every other field setter is observed by its own getter once both calls
    succeed, and by no other getter.
   */
  lemma SetThenGet(n: State, s: Setting, g: Field, getCode: int)
    requires s.Setting? && s.field != Baudrate
    requires getCode == SpOk
    ensures g == s.field ==> Get(Set(n, s, SpOk).state, g, getCode) == Reading(s.value, None, [SpGetConfigField(g)])
    ensures g != s.field ==> Get(Set(n, s, SpOk).state, g, getCode) == Get(n, g, getCode)
  {
  }

  /**
    After a successful `SetFlowControl(v)`, each getter reports the
    expansion of what it reported before: the framing getters are
    unchanged, and the pin getters follow libserialport's rule.
   */
  lemma FlowControlThenGet(n: State, v: int, g: Field, getCode: int)
    requires getCode == SpOk
    ensures Get(Set(n, FlowControl(v), SpOk).state, g, getCode).value == FlowResult(g, v, Get(n, g, getCode).value)
    ensures g in {Baudrate, DataBits, Parity, StopBits} ==>
              Get(Set(n, FlowControl(v), SpOk).state, g, getCode) == Get(n, g, getCode)
  {
  }

  /** `ApplyConfig`: hands the cached configuration, as it is now, to `sp_set_config`. */
  function ApplyConfig(n: State, code: int): (r: Step)
    ensures r.calls == [SpSetConfig(n.cache)]
    ensures r.state == n
    ensures r.err == ErrMsg(code)
  {
    Step(n, ErrMsg(code), [SpSetConfig(n.cache)])
  }

  /** No two field settings of `s` address the same field. */
  predicate Distinct(s: seq<Setting>) {
    forall i, j :: 0 <= i < j < |s| && s[i].Setting? && s[j].Setting? ==> s[i].field != s[j].field
  }

  /** A flow-control setting, if any, comes last. */
  predicate FlowLast(s: seq<Setting>) {
    forall i :: 0 <= i < |s| - 1 ==> s[i].Setting?
  }

  /** The value a field setting of `s` gives field `f`, if any (the first one). */
  function ValueFor(s: seq<Setting>, f: Field): Option<int> {
    if s == [] then None
    else if s[0].Setting? && s[0].field == f then Some(s[0].value)
    else ValueFor(s[1..], f)
  }

  /** The combination a flow-control setting of `s` chooses, if any (the first one). */
  function FlowFor(s: seq<Setting>): Option<int> {
    if s == [] then None
    else if s[0].FlowControl? then Some(s[0].combination)
    else FlowFor(s[1..])
  }

  /**
    The value field `f` holds after the setters `s` all succeed, when it
    held `prior`: the value a field setting gives it (never for the baud
    rate, which is not cached), then the flow-control expansion if `s`
    chooses a combination.
   */
  function Resolved(s: seq<Setting>, f: Field, prior: int): int {
    var written := if f != Baudrate && ValueFor(s, f).Some? then ValueFor(s, f).value else prior;
    if FlowFor(s).Some? then FlowResult(f, FlowFor(s).value, written) else written
  }

  /**
    Runs the setters `s` in order, answering `codes[i]` to the i-th, and
    ignores their errors (as `open` does).
   */
  function SetAll(n: State, s: seq<Setting>, codes: seq<int>): (r: Step)
    requires |codes| == |s|
    ensures r.err.None?
    ensures r.calls == SetterCalls(s)
    ensures r.state.p == n.p && r.state.c == n.c && r.state.isOpen == n.isOpen
    decreases |s|
  {
    if s == [] then Step(n, None, [])
    else
      var first := Set(n, s[0], codes[0]);
      var rest := SetAll(first.state, s[1..], codes[1..]);
      assert SetterCalls(s) == [SetterCall(s[0])] + SetterCalls(s[1..]);
      Step(rest.state, None, first.calls + rest.calls)
  }

  /**
    When every setter succeeds, and a flow-control setting if any comes
    last (as in every sequence the bindings run), each cached field holds
    its resolved value: its own setting's value (the baud rate excepted)
    or its old value, expanded by the flow-control combination.
   */
  lemma {:induction false} SetAllWrites(n: State, s: seq<Setting>, codes: seq<int>, f: Field)
    requires |codes| == |s| && Distinct(s) && FlowLast(s)
    requires forall i :: 0 <= i < |codes| ==> codes[i] == SpOk
    ensures SetAll(n, s, codes).state.cache.Get(f) == Resolved(s, f, n.cache.Get(f))
    decreases |s|
  {
    if s != [] {
      var first := Set(n, s[0], codes[0]);
      assert SetAll(n, s, codes).state == SetAll(first.state, s[1..], codes[1..]).state;
      if s[0].FlowControl? {
        ResolvedFlow(s, f, n.cache.Get(f));
      } else {
        ResolvedStep(s, f, n.cache.Get(f));
        SetAllWrites(first.state, s[1..], codes[1..], f);
      }
    }
  }

  /** When the last setting chooses a combination, that is the combination `s` chooses. */
  lemma {:induction false} FlowForLast(s: seq<Setting>)
    requires |s| > 0 && s[|s| - 1].FlowControl? && FlowLast(s)
    ensures FlowFor(s) == Some(s[|s| - 1].combination)
    decreases |s|
  {
    if |s| > 1 {
      assert s[1..][|s[1..]| - 1] == s[|s| - 1];
      assert FlowLast(s[1..]) by {
        forall i | 0 <= i < |s[1..]| - 1 ensures s[1..][i].Setting? {
          assert s[1..][i] == s[i + 1];
        }
      }
      FlowForLast(s[1..]);
    }
  }

  /** A lone flow-control setting resolves every field by the expansion alone. */
  lemma ResolvedFlow(s: seq<Setting>, f: Field, prior: int)
    requires |s| == 1 && s[0].FlowControl?
    ensures Resolved(s, f, prior) == FlowResult(f, s[0].combination, prior)
  {
    assert ValueFor(s, f) == ValueFor([], f) == None;
    assert FlowFor(s) == Some(s[0].combination);
  }

  /** Resolving after a leading field setting is resolving the rest from that setting's effect. */
  lemma ResolvedStep(s: seq<Setting>, f: Field, prior: int)
    requires |s| > 0 && s[0].Setting? && Distinct(s) && FlowLast(s)
    ensures Distinct(s[1..]) && FlowLast(s[1..])
    ensures Resolved(s, f, prior)
         == Resolved(s[1..], f, if s[0].field == f && f != Baudrate then s[0].value else prior)
  {
    DistinctTail(s);
    forall i | 0 <= i < |s[1..]| - 1 ensures s[1..][i].Setting? {
      assert s[1..][i] == s[i + 1];
    }
    if s[0].field == f && f != Baudrate {
      ValueForMissing(s[1..], f);
    }
  }

  lemma DistinctTail(s: seq<Setting>)
    requires Distinct(s) && |s| > 0
    ensures Distinct(s[1..])
  {
    forall i, j | 0 <= i < j < |s[1..]| && s[1..][i].Setting? && s[1..][j].Setting?
      ensures s[1..][i].field != s[1..][j].field
    {
      assert s[1..][i] == s[i + 1] && s[1..][j] == s[j + 1];
    }
  }

  /** In a distinct sequence, the value for each field setting's field is that setting's value. */
  lemma {:induction false} ValueForIndex(s: seq<Setting>, i: nat)
    requires Distinct(s) && i < |s| && s[i].Setting?
    ensures ValueFor(s, s[i].field) == Some(s[i].value)
    decreases i
  {
    if i > 0 {
      assert s[1..][i - 1] == s[i];
      DistinctTail(s);
      ValueForIndex(s[1..], i - 1);
    }
  }

  /** A field no field setting names has no value. */
  lemma {:induction false} ValueForMissing(s: seq<Setting>, f: Field)
    requires forall i :: 0 <= i < |s| && s[i].Setting? ==> s[i].field != f
    ensures ValueFor(s, f).None?
    decreases |s|
  {
    if s != [] {
      assert forall i :: 0 <= i < |s[1..]| ==> s[1..][i] == s[i + 1];
      ValueForMissing(s[1..], f);
    }
  }

  /** Index of the first setter whose answer `errmsg` turns into an error, or `|s|`. */
  function FirstFailure(codes: seq<int>): (k: nat)
    ensures k <= |codes|
    ensures forall i :: 0 <= i < k ==> ErrMsg(codes[i]).None?
    ensures k < |codes| ==> ErrMsg(codes[k]).Some?
  {
    if codes == [] then 0
    else if ErrMsg(codes[0]).Some? then 0
    else 1 + FirstFailure(codes[1..])
  }

  /** How many setters run before one fails: all of them, or up to and including the failing one. */
  function Attempted(codes: seq<int>): nat {
    if FirstFailure(codes) < |codes| then FirstFailure(codes) + 1 else |codes|
  }

  /**
    Runs the setters `s` in order and stops at the first one whose error is
    not nil, returning that error (as `ApplyRawConfig` does).
   */
  function RunSetters(n: State, s: seq<Setting>, codes: seq<int>): (r: Step)
    requires |codes| == |s|
    ensures r.state.p == n.p && r.state.c == n.c && r.state.isOpen == n.isOpen
    decreases |s|
  {
    if s == [] then Step(n, None, [])
    else
      var first := Set(n, s[0], codes[0]);
      if first.err.Some? then first
      else
        var rest := RunSetters(first.state, s[1..], codes[1..]);
        Step(rest.state, rest.err, first.calls + rest.calls)
  }

  /** The setters called are exactly those up to and including the first failing one. */
  lemma {:induction false} RunSettersCalls(n: State, s: seq<Setting>, codes: seq<int>)
    requires |codes| == |s|
    ensures RunSetters(n, s, codes).calls == SetterCalls(s[..Attempted(codes)])
    decreases |s|
  {
    if s != [] {
      var first := Set(n, s[0], codes[0]);
      var t := s[..Attempted(codes)];
      assert t[0] == s[0];
      if first.err.Some? {
        assert t == [s[0]];
      } else {
        RunSettersCalls(first.state, s[1..], codes[1..]);
        assert t[1..] == s[1..][..Attempted(codes[1..])];
      }
    }
  }

  /** The error returned is the first failing setter's, or nil when none fails. */
  lemma {:induction false} RunSettersError(n: State, s: seq<Setting>, codes: seq<int>)
    requires |codes| == |s|
    ensures RunSetters(n, s, codes).err
         == (if FirstFailure(codes) < |s| then ErrMsg(codes[FirstFailure(codes)]) else None)
    decreases |s|
  {
    if s != [] && ErrMsg(codes[0]).None? {
      RunSettersError(Set(n, s[0], codes[0]).state, s[1..], codes[1..]);
      assert FirstFailure(codes) == 1 + FirstFailure(codes[1..]);
    }
  }

  /** Setters neither close nor free anything. */
  lemma SetterCallsRelease(s: seq<Setting>)
    ensures NoFrees(SetterCalls(s)) && NoCloses(SetterCalls(s))
  {
  }

  /** Setters followed by `sp_set_config` neither close nor free anything. */
  lemma SetterCallsApplied(s: seq<Setting>, c: Config)
    ensures NoFrees(SetterCalls(s) + [SpSetConfig(c)]) && NoCloses(SetterCalls(s) + [SpSetConfig(c)])
  {
    SetterCallsRelease(s);
    var t := SetterCalls(s) + [SpSetConfig(c)];
    assert forall i :: 0 <= i < |t| ==> t[i] == (if i < |s| then SetterCalls(s)[i] else SpSetConfig(c));
  }

  /** The raw mode neither closes nor frees anything. */
  lemma ApplyRawReleases(n: State, s: seq<Setting>, codes: seq<int>, apply: int)
    requires |codes| == |s|
    ensures NoFrees(ApplyRaw(n, s, codes, apply).calls) && NoCloses(ApplyRaw(n, s, codes, apply).calls)
  {
    SetterCallsRelease(s[..Attempted(codes)]);
    SetterCallsRelease(s);
  }

  /** With no failing setter, stopping at the first failure changes nothing. */
  lemma {:induction false} RunSettersAllSucceed(n: State, s: seq<Setting>, codes: seq<int>)
    requires |codes| == |s| && FirstFailure(codes) == |s|
    ensures RunSetters(n, s, codes) == SetAll(n, s, codes)
    decreases |s|
  {
    if s != [] {
      assert ErrMsg(codes[0]).None?;
      RunSettersAllSucceed(Set(n, s[0], codes[0]).state, s[1..], codes[1..]);
    }
  }

  /**
    The shared shape of `ApplyRawConfig`: the fixed setters, then
    `sp_set_config` only if none of them failed.
   */
  function ApplyRaw(n: State, s: seq<Setting>, codes: seq<int>, apply: int): (r: Step)
    requires |codes| == |s|
    ensures r.state.p == n.p && r.state.c == n.c && r.state.isOpen == n.isOpen
    ensures FirstFailure(codes) < |s| ==>
              r.err == ErrMsg(codes[FirstFailure(codes)]) && r.calls == SetterCalls(s[..FirstFailure(codes) + 1])
    ensures FirstFailure(codes) == |s| ==>
              r.err == ErrMsg(apply) && r.calls == SetterCalls(s) + [SpSetConfig(r.state.cache)]
  {
    RunSettersCalls(n, s, codes);
    RunSettersError(n, s, codes);
    var setting := RunSetters(n, s, codes);
    if setting.err.Some? then setting
    else
      var applied := ApplyConfig(setting.state, apply);
      Step(applied.state, applied.err, setting.calls + applied.calls)
  }

  /**
    When every setter answers `SP_OK`, `ApplyRaw` reaches `sp_set_config`
    and leaves each field at its resolved value, as `SetAllWrites` states.
   */
  lemma ApplyRawAllOk(n: State, s: seq<Setting>, codes: seq<int>, apply: int, f: Field)
    requires |codes| == |s| && Distinct(s) && FlowLast(s)
    requires forall i :: 0 <= i < |codes| ==> codes[i] == SpOk
    ensures FirstFailure(codes) == |s|
    ensures ApplyRaw(n, s, codes, apply).state.cache.Get(f) == Resolved(s, f, n.cache.Get(f))
  {
    RunSettersAllSucceed(n, s, codes);
    SetAllWrites(n, s, codes, f);
  }

  /** A failing setter means `sp_set_config` is never called. */
  lemma ApplyRawStopsBeforeApply(n: State, s: seq<Setting>, codes: seq<int>, apply: int)
    requires |codes| == |s| && FirstFailure(codes) < |s|
    ensures forall i :: 0 <= i < |ApplyRaw(n, s, codes, apply).calls| ==> !ApplyRaw(n, s, codes, apply).calls[i].SpSetConfig?
  {
  }

  /**
    What the release counts of a trace are, given how the pointers moved:
    each pointer moves only from its original value to nil, and the trace
    frees it exactly when it did.
   */
  predicate Accounted(before: State, after: State, calls: seq<Call>) {
    && (after.p.Some? ==> after.p == before.p)
    && (after.c.Some? ==> after.c == before.c)
    && Count(calls, FreePort) == (if before.p.Some? && after.p.None? then 1 else 0)
    && Count(calls, FreeConfig) == (if before.c.Some? && after.c.None? then 1 else 0)
  }

  /** An operation that frees nothing and keeps both pointers is accounted for. */
  lemma KeepsHandles(before: State, after: State, calls: seq<Call>)
    requires NoFrees(calls) && after.p == before.p && after.c == before.c
    ensures Accounted(before, after, calls)
  {
    NoFreesCount(calls);
  }

  /** `free` is accounted for. */
  lemma FreeAccounted(n: State)
    ensures Accounted(n, Free(n).state, Free(n).calls)
  {
  }

  /** Accounted traces compose. */
  lemma AccountedChain(a: State, b: State, c: State, x: seq<Call>, y: seq<Call>)
    requires Accounted(a, b, x) && Accounted(b, c, y)
    ensures Accounted(a, c, x + y)
  {
    CountAppend(x, y, FreePort);
    CountAppend(x, y, FreeConfig);
  }
}

=== FILE: provider.dfy ===
/**
  The libserialport interface as the Go bindings use it.

  libserialport itself is not modelled: every call the bindings make is
  recorded as a `Call`, and whatever the library answers is supplied by the
  caller of the model as a parameter. The numeric values below are those of
  libserialport.h.
 */
module Provider {
  import opened Wrappers

  // `enum sp_return`
  const SpOk: int := 0
  const SpErrArg: int := -1
  const SpErrFail: int := -2
  const SpErrMem: int := -3
  const SpErrSupp: int := -4

  // `enum sp_mode`; the bindings' default is `MODE_READ | MODE_WRITE`
  const ModeRead: int := 1
  const ModeWrite: int := 2
  const ModeReadWrite: int := 3

  // The members of the configuration enums the bindings and the flow-control setter use
  const ParityNone: int := 0
  const RtsOff: int := 0
  const RtsOn: int := 1
  const RtsFlowControl: int := 2
  const CtsIgnore: int := 0
  const CtsFlowControl: int := 1
  const DtrOff: int := 0
  const DtrOn: int := 1
  const DtrFlowControl: int := 2
  const DsrIgnore: int := 0
  const DsrFlowControl: int := 1
  const XonXoffDisabled: int := 0
  const XonXoffInOut: int := 3
  const FlowControlNone: int := 0
  const FlowControlXonXoff: int := 1
  const FlowControlRtsCts: int := 2
  const FlowControlDtrDsr: int := 3

  // `enum sp_buffer`
  const BufInput: int := 1
  const BufOutput: int := 2
  const BufBoth: int := 3

  /** A C `int` / Go `int32`, the width of libserialport's transfer counts. */
  type Int32 = x: int | -0x8000_0000 <= x < 0x8000_0000

  type Byte = x: int | 0 <= x < 0x100

  /** Identity of one native allocation (an `sp_port` or an `sp_port_config`). */
  datatype Handle = Handle(id: nat)

  /** The settings held in an `sp_port_config`. */
  datatype Field =
    | Baudrate | DataBits | Parity | StopBits
    | Rts | Cts | Dtr | Dsr | XonXoff

  /**
    The value libserialport's `sp_set_config_flowcontrol` leaves in field
    `f` for the combination `v`, when the field held `x`: the pin pair of the
    chosen hardware combination is put under flow control, the other pair's
    input is ignored and its output, if it was under flow control, is
    switched on; XON/XOFF is enabled both ways for the software combination
    and disabled otherwise; framing is not touched.
   */
  function FlowResult(f: Field, v: int, x: int): int {
    match f
    case Rts => if v == FlowControlRtsCts then RtsFlowControl else if x == RtsFlowControl then RtsOn else x
    case Cts => if v == FlowControlRtsCts then CtsFlowControl else CtsIgnore
    case Dtr => if v == FlowControlDtrDsr then DtrFlowControl else if x == DtrFlowControl then DtrOn else x
    case Dsr => if v == FlowControlDtrDsr then DsrFlowControl else DsrIgnore
    case XonXoff => if v == FlowControlXonXoff then XonXoffInOut else XonXoffDisabled
    case _ => x
  }

  /** Contents of an `sp_port_config` (`struct sp_port_config`). */
  datatype Config = Config(
    baudrate: int, bits: int, parity: int, stopbits: int,
    rts: int, cts: int, dtr: int, dsr: int, xonxoff: int)
  {
    function Get(f: Field): int {
      match f
      case Baudrate => baudrate
      case DataBits => bits
      case Parity => parity
      case StopBits => stopbits
      case Rts => rts
      case Cts => cts
      case Dtr => dtr
      case Dsr => dsr
      case XonXoff => xonxoff
    }

    /** The configuration with one setting replaced and every other kept. */
    function With(f: Field, v: int): (r: Config)
      ensures r.Get(f) == v
      ensures forall g :: g != f ==> r.Get(g) == Get(g)
    {
      match f
      case Baudrate => this.(baudrate := v)
      case DataBits => this.(bits := v)
      case Parity => this.(parity := v)
      case StopBits => this.(stopbits := v)
      case Rts => this.(rts := v)
      case Cts => this.(cts := v)
      case Dtr => this.(dtr := v)
      case Dsr => this.(dsr := v)
      case XonXoff => this.(xonxoff := v)
    }

    /** The configuration after `sp_set_config_flowcontrol(v)`. */
    function WithFlowControl(v: int): (r: Config)
      ensures forall g :: r.Get(g) == FlowResult(g, v, Get(g))
    {
      this.(rts := FlowResult(Rts, v, rts), cts := FlowResult(Cts, v, cts),
            dtr := FlowResult(Dtr, v, dtr), dsr := FlowResult(Dsr, v, dsr),
            xonxoff := FlowResult(XonXoff, v, xonxoff))
    }
  }

  /**
    A pin pair is under flow control exactly when its combination is
    chosen, XON/XOFF is enabled exactly for the software combination, no
    other value survives in CTS, DSR or XON/XOFF, and choosing the same
    combination again changes nothing.
   */
  lemma FlowControlExpansion(c: Config, v: int)
    ensures var r := c.WithFlowControl(v);
      && (r.rts == RtsFlowControl <==> v == FlowControlRtsCts)
      && (r.cts == CtsFlowControl <==> v == FlowControlRtsCts)
      && (r.dtr == DtrFlowControl <==> v == FlowControlDtrDsr)
      && (r.dsr == DsrFlowControl <==> v == FlowControlDtrDsr)
      && (r.xonxoff == XonXoffInOut <==> v == FlowControlXonXoff)
      && r.cts in {CtsIgnore, CtsFlowControl} && r.dsr in {DsrIgnore, DsrFlowControl}
      && r.xonxoff in {XonXoffDisabled, XonXoffInOut}
      && r.WithFlowControl(v) == r
      && r.baudrate == c.baudrate && r.bits == c.bits && r.parity == c.parity && r.stopbits == c.stopbits
  {
  }

  /**
    One setter invocation: a single field to a value, or the flow-control
    combination, which libserialport expands into the pin fields.
   */
  datatype Setting = Setting(field: Field, value: int) | FlowControl(combination: int)

  /** The libserialport calls that take nothing the model tracks. */
  datatype Query =
    | ListPortsQuery | FreePortListQuery | NewConfigQuery | GetConfigQuery
    | GetPortHandleQuery | GetPortNameQuery | InputWaitingQuery | OutputWaitingQuery | DrainQuery

  /**
    A call the bindings make outside Go: libserialport functions, plus the
    `os.File` reads and writes used when no deadline is set.
   */
  datatype Call =
    | SpGetPortByName(name: string)
    | SpCopyPort(source: Handle)
    | SpOpen(mode: int)
    | SpClose(target: Option<Handle>)
    | SpFreePort(freed: Handle)
    | SpFreeConfig(freedConfig: Handle)
    | SpSetConfig(config: Config)
    | SpSetBaudrate(baudrate: int)
    | SpSetConfigField(field: Field, value: int)
    | SpSetConfigFlowControl(combination: int)
    | SpGetConfigField(field: Field)
    | SpBlockingRead(len: nat, timeout: nat)
    | SpNonblockingRead(len: nat)
    | SpBlockingWrite(data: seq<Byte>, timeout: nat)
    | SpNonblockingWrite(data: seq<Byte>)
    | SpFlush(buffers: int)
    | FileRead(len: nat)
    | FileWrite(data: seq<Byte>)
    | Sp(query: Query)

  const SpListPorts: Call := Sp(ListPortsQuery)
  const SpFreePortList: Call := Sp(FreePortListQuery)
  const SpNewConfig: Call := Sp(NewConfigQuery)
  const SpGetConfig: Call := Sp(GetConfigQuery)
  const SpGetPortHandle: Call := Sp(GetPortHandleQuery)
  const SpGetPortName: Call := Sp(GetPortNameQuery)
  const SpInputWaiting: Call := Sp(InputWaitingQuery)
  const SpOutputWaiting: Call := Sp(OutputWaitingQuery)
  const SpDrain: Call := Sp(DrainQuery)

  /**
    The call a setter makes: `SetBaudrate` goes to the port (`sp_set_baudrate`),
    every other setter to the cached configuration (`sp_set_config_*`).
   */
  function SetterCall(s: Setting): Call {
    match s
    case Setting(f, v) => if f == Baudrate then SpSetBaudrate(v) else SpSetConfigField(f, v)
    case FlowControl(v) => SpSetConfigFlowControl(v)
  }

  /** The calls made by running the setters `s` in order. */
  function SetterCalls(s: seq<Setting>): (r: seq<Call>)
    ensures |r| == |s|
    ensures forall i :: 0 <= i < |s| ==> r[i] == SetterCall(s[i])
  {
    if s == [] then [] else [SetterCall(s[0])] + SetterCalls(s[1..])
  }

  /** The three release operations whose repetition would corrupt native memory. */
  datatype Release = ClosePort | FreePort | FreeConfig

  predicate Releases(c: Call, k: Release) {
    match k
    case ClosePort => c.SpClose?
    case FreePort => c.SpFreePort?
    case FreeConfig => c.SpFreeConfig?
  }

  /** How many calls of kind `k` a trace holds. */
  function Count(calls: seq<Call>, k: Release): nat {
    if calls == [] then 0
    else Count(calls[..|calls| - 1], k) + (if Releases(calls[|calls| - 1], k) then 1 else 0)
  }

  lemma {:induction false} CountAppend(a: seq<Call>, b: seq<Call>, k: Release)
    ensures Count(a + b, k) == Count(a, k) + Count(b, k)
    decreases |b|
  {
    if b == [] {
      assert a + b == a;
    } else {
      var ab := a + b;
      assert ab[..|ab| - 1] == a + b[..|b| - 1];
      assert ab[|ab| - 1] == b[|b| - 1];
      CountAppend(a, b[..|b| - 1], k);
    }
  }

  lemma CountSingle(c: Call)
    ensures forall k :: Count([c], k) == (if Releases(c, k) then 1 else 0)
  {
    assert [c][..0] == [];
  }

  /** A trace that frees neither an `sp_port` nor an `sp_port_config`. */
  predicate NoFrees(calls: seq<Call>) {
    forall i :: 0 <= i < |calls| ==> !calls[i].SpFreePort? && !calls[i].SpFreeConfig?
  }

  lemma {:induction false} NoFreesCount(calls: seq<Call>)
    requires NoFrees(calls)
    ensures Count(calls, FreePort) == 0 && Count(calls, FreeConfig) == 0
    decreases |calls|
  {
    if calls != [] {
      NoFreesCount(calls[..|calls| - 1]);
    }
  }

  /** A trace that never closes a port. */
  predicate NoCloses(calls: seq<Call>) {
    forall i :: 0 <= i < |calls| ==> !calls[i].SpClose?
  }
}

=== FILE: registry.dfy ===
/**
  Port discovery, written identically in both packages: `PortByName` and
  `ListPorts`. They differ only in the size of the Go array type used to
  walk libserialport's null-terminated port list, which `ListPorts` takes as
  `bound` (indexing at or beyond it would panic).
 */
module Registry {
  import opened Wrappers
  import opened Provider
  import opened Status
  import opened Native

  /** What libserialport answers when one port is looked up by name. */
  datatype Lookup = Lookup(code: int, port: Handle, configCode: int, config: Handle, initial: Config)

  /** The port a successful lookup and allocation produce: both objects, the initial configuration, not opened. */
  function Allocated(l: Lookup): State {
    State(Some(l.port), Some(l.config), l.initial, false)
  }

  /**
    `PortByName`: `sp_get_port_by_name`, then `newSerialPort` on the result.
    A lookup error is returned at once, before any configuration is allocated;
    otherwise the error is the allocation's.
   */
  function PortByName(name: string, l: Lookup): (r: Created)
    ensures |r.calls| > 0 && r.calls[0] == SpGetPortByName(name)
    ensures ErrMsg(l.code).Some? ==> r.port.None? && r.err == ErrMsg(l.code) && r.calls == [SpGetPortByName(name)]
    ensures ErrMsg(l.code).None? ==> r.err == ErrMsg(l.configCode) && r.calls == [SpGetPortByName(name), SpNewConfig]
    ensures r.port.Some? <==> ErrMsg(l.code).None? && ErrMsg(l.configCode).None?
    ensures r.port.Some? ==> r.err.None? && Fresh(r.port.value) && r.port.value == Allocated(l)
    ensures r.port.None? ==> r.err.Some?
  {
    var err := ErrMsg(l.code);
    if err.Some? then Created(None, err, [SpGetPortByName(name)])
    else
      var made := NewSerialPort(l.port, l.configCode, l.config, l.initial);
      Created(made.port, made.err, [SpGetPortByName(name)] + made.calls)
  }

  /** The list holds a null entry at an index the Go array type can reach. */
  predicate Terminated(list: seq<Option<Handle>>, bound: nat) {
    exists i :: 0 <= i < |list| && i < bound && list[i].None?
  }

  /** Index of the first null entry: the number of ports listed. */
  function NullIndex(list: seq<Option<Handle>>): (k: nat)
    requires exists i :: 0 <= i < |list| && list[i].None?
    ensures k < |list| && list[k].None?
    ensures forall j :: 0 <= j < k ==> list[j].Some?
  {
    if list[0].None? then 0
    else
      assert exists i :: 0 <= i < |list[1..]| && list[1..][i].None? by {
        var i :| 0 <= i < |list| && list[i].None?;
        assert list[1..][i - 1] == list[i];
      }
      1 + NullIndex(list[1..])
  }

  /** What libserialport answers for the j-th listed port: the copy, then its configuration. */
  datatype CopyReply = CopyReply(copyCode: int, copy: Handle, configCode: int, config: Handle, initial: Config)

  /** The port `newSerialPort` makes from a successful reply. */
  function Wrapped(r: CopyReply): State {
    State(Some(r.copy), Some(r.config), r.initial, false)
  }

  /** The copy of a listed port, or the allocation of its configuration, failed. */
  predicate CopyFailed(r: CopyReply) {
    ErrMsg(r.copyCode).Some? || ErrMsg(r.configCode).Some?
  }

  /** The first `n` replies all succeed. */
  predicate AllCopied(replies: seq<CopyReply>, n: nat)
    requires n <= |replies|
  {
    forall j :: 0 <= j < n ==> !CopyFailed(replies[j])
  }

  /** Index of the first of the first `n` replies that fails, or `n`. */
  function FirstFailedCopy(replies: seq<CopyReply>, n: nat): (k: nat)
    requires n <= |replies|
    ensures k <= n && AllCopied(replies, k)
    ensures k < n ==> CopyFailed(replies[k])
    decreases n
  {
    if n == 0 then 0
    else
      var k := FirstFailedCopy(replies, n - 1);
      if k < n - 1 || CopyFailed(replies[n - 1]) then k else n
  }

  /** A failing reply after `j` successful ones is the first failure among any longer prefix. */
  lemma FirstFailedCopyAt(replies: seq<CopyReply>, n: nat, j: nat)
    requires j < n <= |replies| && AllCopied(replies, j) && CopyFailed(replies[j])
    ensures FirstFailedCopy(replies, n) == j
  {
  }

  /** The error a failed reply yields: the copy's, else the allocation's. */
  function CopyError(r: CopyReply): Option<Error> {
    if ErrMsg(r.copyCode).Some? then ErrMsg(r.copyCode) else ErrMsg(r.configCode)
  }

  /** The calls made for a failing copy of `source`: the copy, and the allocation if the copy succeeded. */
  function FailedCopyCalls(source: Handle, r: CopyReply): seq<Call> {
    [SpCopyPort(source)] + (if ErrMsg(r.copyCode).Some? then [] else [SpNewConfig])
  }

  /** The calls made while copying the first `n` listed ports, in list order. */
  function CopyCalls(list: seq<Option<Handle>>, n: nat): seq<Call>
    requires n <= |list| && forall j :: 0 <= j < n ==> list[j].Some?
  {
    if n == 0 then [] else CopyCalls(list, n - 1) + [SpCopyPort(list[n - 1].value), SpNewConfig]
  }

  /**
    `ListPorts`. A list call other than `SP_OK` returns nil with `errmsg` of
    its code, which is nil too for a code `errmsg` does not know. Otherwise the
    ports before the null terminator are copied and wrapped in list order; the
    first copy or configuration failure returns nil with that error; the list
    is freed on every path after a successful list call.
   */
  method ListPorts(bound: nat, listCode: int, list: seq<Option<Handle>>, replies: seq<CopyReply>)
    returns (ports: Option<seq<State>>, err: Option<Error>, calls: seq<Call>)
    requires listCode == SpOk ==> Terminated(list, bound) && |replies| >= NullIndex(list)
    ensures listCode != SpOk ==> ports.None? && err == ErrMsg(listCode) && calls == [SpListPorts]
    ensures listCode == SpOk ==> |calls| >= 2 && calls[0] == SpListPorts && calls[|calls| - 1] == SpFreePortList
    ensures ports.Some? <==> listCode == SpOk && AllCopied(replies, NullIndex(list))
    ensures ports.Some? ==> err.None? && |ports.value| == NullIndex(list)
    ensures ports.Some? ==> forall j :: 0 <= j < |ports.value| ==> ports.value[j] == Wrapped(replies[j])
    ensures ports.Some? ==> calls == [SpListPorts] + CopyCalls(list, NullIndex(list)) + [SpFreePortList]
    ensures listCode == SpOk && ports.None? ==>
              var k := FirstFailedCopy(replies, NullIndex(list));
              && k < NullIndex(list) && err == CopyError(replies[k]) && err.Some?
              && calls == [SpListPorts] + CopyCalls(list, k) + FailedCopyCalls(list[k].value, replies[k]) + [SpFreePortList]
  {
    if listCode != SpOk {
      return None, ErrMsg(listCode), [SpListPorts];
    }
    calls := [SpListPorts];
    assert NullIndex(list) < bound by {
      var i :| 0 <= i < |list| && i < bound && list[i].None?;
    }

    // count the entries before the terminator; every index read lies inside the Go array
    var count := 0;
    while list[count].Some?
      invariant 0 <= count <= NullIndex(list) < bound
      decreases NullIndex(list) - count
    {
      count := count + 1;
    }

    var copied: seq<Call>;
    ports, err, copied := CopyPorts(list, count, replies);
    calls := calls + copied + [SpFreePortList];
  }

  /**
    The populating loop of `ListPorts`: the first `count` listed ports are
    copied and wrapped in order, stopping at the first copy or
    configuration failure with its error.
   */
  method CopyPorts(list: seq<Option<Handle>>, count: nat, replies: seq<CopyReply>)
    returns (ports: Option<seq<State>>, err: Option<Error>, calls: seq<Call>)
    requires count <= |list| && count <= |replies| && forall j :: 0 <= j < count ==> list[j].Some?
    ensures ports.Some? <==> AllCopied(replies, count)
    ensures ports.Some? ==> err.None? && |ports.value| == count && calls == CopyCalls(list, count)
    ensures ports.Some? ==> forall j :: 0 <= j < count ==> ports.value[j] == Wrapped(replies[j])
    ensures ports.None? ==>
              var k := FirstFailedCopy(replies, count);
              && k < count && err == CopyError(replies[k]) && err.Some?
              && calls == CopyCalls(list, k) + FailedCopyCalls(list[k].value, replies[k])
  {
    var out: seq<State> := [];
    calls := [];
    var j := 0;
    while j < count
      invariant 0 <= j <= count && |out| == j
      invariant AllCopied(replies, j)
      invariant forall i :: 0 <= i < j ==> out[i] == Wrapped(replies[i])
      invariant calls == CopyCalls(list, j)
    {
      var copying := calls;
      calls := calls + [SpCopyPort(list[j].value)];
      var copyErr := ErrMsg(replies[j].copyCode);
      if copyErr.Some? {
        FirstFailedCopyAt(replies, count, j);
        return None, copyErr, copying + FailedCopyCalls(list[j].value, replies[j]);
      }
      var made := NewSerialPort(replies[j].copy, replies[j].configCode, replies[j].config, replies[j].initial);
      calls := calls + made.calls;
      if made.port.None? {
        FirstFailedCopyAt(replies, count, j);
        return None, made.err, copying + FailedCopyCalls(list[j].value, replies[j]);
      }
      out := out + [made.port.value];
      j := j + 1;
    }
    return Some(out), None, calls;
  }
}

=== FILE: serial.dfy ===
/**
  Package `serial` (serial.go): a port with read and write deadlines,
  opened with `Options` that are resolved against defaults, and
  deadline-driven `Read` and `Write`.
 */
module Serial {
  import opened Wrappers
  import opened Provider
  import opened Status
  import opened Native
  import opened Registry
  import opened Io

  /** `serial.Port`: the native state plus the two deadlines. */
  datatype Port = Port(native: State, readDeadline: Deadline, writeDeadline: Deadline)

  /** `serial.Options`; a zero field asks for the default. */
  datatype Options = Options(mode: int, baudrate: int, dataBits: int, stopBits: int, parity: int, flowControl: int)

  /** The outcome of an operation on a port. */
  datatype PortStep = PortStep(port: Port, err: Option<Error>, calls: seq<Call>)

  /** The outcome of an operation that returns only an error. */
  datatype Outcome = Outcome(err: Option<Error>, calls: seq<Call>)

  /** A newly wrapped port has no deadlines. */
  function Wrap(n: State): Port {
    Port(n, Zero, Zero)
  }

  /** serial.go walks the port list through a `*[1 << 15]` array. */
  const ArrayBound: nat := 0x8000

  /**
    `ListPorts`: the ports before the null terminator, copied and wrapped in
    list order, or nil with the first error.
   */
  method ListPorts(listCode: int, list: seq<Option<Handle>>, replies: seq<CopyReply>)
    returns (ports: Option<seq<Port>>, err: Option<Error>, calls: seq<Call>)
    requires listCode == SpOk ==> Terminated(list, ArrayBound) && |replies| >= NullIndex(list)
    ensures listCode != SpOk ==> ports.None? && err == ErrMsg(listCode) && calls == [SpListPorts]
    ensures ports.Some? <==> listCode == SpOk && AllCopied(replies, NullIndex(list))
    ensures ports.Some? ==> err.None? && |ports.value| == NullIndex(list)
    ensures ports.Some? ==> forall j :: 0 <= j < |ports.value| ==> ports.value[j] == Wrap(Wrapped(replies[j]))
    ensures ports.Some? ==> calls == [SpListPorts] + CopyCalls(list, NullIndex(list)) + [SpFreePortList]
    ensures listCode == SpOk ==> |calls| >= 2 && calls[0] == SpListPorts && calls[|calls| - 1] == SpFreePortList
    ensures listCode == SpOk && ports.None? ==>
              var k := FirstFailedCopy(replies, NullIndex(list));
              && k < NullIndex(list) && err == CopyError(replies[k]) && err.Some?
              && calls == [SpListPorts] + CopyCalls(list, k) + FailedCopyCalls(list[k].value, replies[k]) + [SpFreePortList]
  {
    var natives: Option<seq<State>>;
    natives, err, calls := Registry.ListPorts(ArrayBound, listCode, list, replies);
    if natives.None? {
      ports := None;
    } else {
      var wrapped := seq(|natives.value|, i requires 0 <= i < |natives.value| => Wrap(natives.value[i]));
      ports := Some(wrapped);
    }
  }

  /** What libserialport answers during `open`, call by call. */
  datatype OpenReplies = OpenReplies(
    open: int, getConfig: int, device: Config,
    baudrate: int, dataBits: int, stopBits: int, parity: int, rts: int, dtr: int, flowControl: int,
    apply: int, handle: int, close: int)

  /** The access mode `open` requests: `MODE_READ | MODE_WRITE` unless `opt.Mode` is set. */
  function OpenMode(opt: Options): int {
    if opt.mode != 0 then opt.mode else ModeReadWrite
  }

  /**
    The setters `open` runs, in order. A zero baud rate only rewrites the
    local copy of the options, so no baud-rate setter runs at all.
   */
  function OpenSettings(opt: Options): (s: seq<Setting>)
    ensures Distinct(s) && FlowLast(s)
    ensures (exists i :: 0 <= i < |s| && s[i] == Setting(Baudrate, opt.baudrate)) <==> opt.baudrate != 0
    ensures forall i :: 0 <= i < |s| && s[i].Setting? && s[i].field == Baudrate ==> s[i].value == opt.baudrate
  {
    var framing := [
      Setting(DataBits, if opt.dataBits == 0 then 8 else opt.dataBits),
      Setting(StopBits, if opt.stopBits == 0 then 1 else opt.stopBits),
      Setting(Parity, opt.parity),
      Setting(Rts, RtsOff),
      Setting(Dtr, DtrOff),
      FlowControl(opt.flowControl)];
    if opt.baudrate == 0 then framing
    else
      var s := [Setting(Baudrate, opt.baudrate)] + framing;
      assert s[0] == Setting(Baudrate, opt.baudrate);
      s
  }

  /**
    The settings `open` requests: the baud rate only when given, data bits 8
    and stop bits 1 by default, parity and flow control as given, RTS and
    DTR off, and no CTS, DSR or XON/XOFF setter of their own.
   */
  lemma OpenSettingsResolve(opt: Options)
    ensures var s := OpenSettings(opt);
      && ValueFor(s, Baudrate) == (if opt.baudrate == 0 then None else Some(opt.baudrate))
      && ValueFor(s, DataBits) == Some(if opt.dataBits == 0 then 8 else opt.dataBits)
      && ValueFor(s, StopBits) == Some(if opt.stopBits == 0 then 1 else opt.stopBits)
      && ValueFor(s, Parity) == Some(opt.parity)
      && ValueFor(s, Rts) == Some(RtsOff) && ValueFor(s, Dtr) == Some(DtrOff)
      && FlowFor(s) == Some(opt.flowControl)
      && ValueFor(s, Cts).None? && ValueFor(s, Dsr).None? && ValueFor(s, XonXoff).None?
  {
    var s := OpenSettings(opt);
    var o := if opt.baudrate == 0 then 0 else 1;
    if o == 1 {
      ValueForIndex(s, 0);
    } else {
      ValueForMissing(s, Baudrate);
    }
    ValueForIndex(s, o);
    ValueForIndex(s, o + 1);
    ValueForIndex(s, o + 2);
    ValueForIndex(s, o + 3);
    ValueForIndex(s, o + 4);
    FlowForLast(s);
    ValueForMissing(s, Cts);
    ValueForMissing(s, Dsr);
    ValueForMissing(s, XonXoff);
  }

  /** The answers to those setters, in the same order. */
  function OpenCodes(opt: Options, rep: OpenReplies): (codes: seq<int>)
    ensures |codes| == |OpenSettings(opt)|
  {
    var framing := [rep.dataBits, rep.stopBits, rep.parity, rep.rts, rep.dtr, rep.flowControl];
    if opt.baudrate == 0 then framing else [rep.baudrate] + framing
  }

  /**
    The middle of `open`, once the device configuration `rep.device` is
    read: the setters, whose errors are ignored, then `ApplyConfig`.
   */
  function Configure(n: State, opt: Options, rep: OpenReplies): (r: Step)
    ensures r.state.p == n.p && r.state.c == n.c && r.state.isOpen == n.isOpen
    ensures NoCloses(r.calls) && NoFrees(r.calls)
  {
    var configured := SetAll(n.(cache := rep.device), OpenSettings(opt), OpenCodes(opt, rep));
    var applied := ApplyConfig(configured.state, rep.apply);
    SetterCallsApplied(OpenSettings(opt), configured.state.cache);
    Step(applied.state, None, configured.calls + applied.calls)
  }

  /** The middle of `open` sets the baud rate exactly when one is requested. */
  lemma ConfigureSetsBaudrate(n: State, opt: Options, rep: OpenReplies)
    ensures SetsBaudrate(Configure(n, opt, rep).calls) <==> opt.baudrate != 0
  {
    var s := OpenSettings(opt);
    var configured := SetAll(n.(cache := rep.device), s, OpenCodes(opt, rep));
    var applied := ApplyConfig(configured.state, rep.apply);
    SetsBaudrateAppend(configured.calls, applied.calls);
    assert SetsBaudrate(configured.calls) <==> exists i :: 0 <= i < |s| && s[i] == Setting(Baudrate, opt.baudrate) by {
      if SetsBaudrate(configured.calls) {
        var i :| 0 <= i < |configured.calls| && configured.calls[i].SpSetBaudrate?;
        assert configured.calls[i] == SetterCall(s[i]);
      }
      if exists i :: 0 <= i < |s| && s[i] == Setting(Baudrate, opt.baudrate) {
        var i :| 0 <= i < |s| && s[i] == Setting(Baudrate, opt.baudrate);
        assert configured.calls[i] == SetterCall(s[i]);
      }
    }
  }

  /**
    `open`: `sp_open` with the resolved mode; on failure return at once,
    without `Close`. Then `sp_get_config` into the cache; on failure `Close`
    and return. Then the setters and `ApplyConfig`, whose errors are ignored.
    Then `sp_get_port_handle`; on failure `Close` and return. Only then is the
    port marked opened.
   */
  function OpenPort(port: Port, opt: Options, rep: OpenReplies): (r: PortStep)
    ensures |r.calls| > 0 && r.calls[0] == SpOpen(if opt.mode == 0 then ModeReadWrite else opt.mode)
    ensures ErrMsg(rep.open).Some? ==> r.port == port && r.err == ErrMsg(rep.open) && |r.calls| == 1
    ensures r.err.None? <==> ErrMsg(rep.open).None? && ErrMsg(rep.getConfig).None? && ErrMsg(rep.handle).None?
    ensures ErrMsg(rep.open).None? && r.err.Some? ==>
              r.err == (if ErrMsg(rep.getConfig).Some? then ErrMsg(rep.getConfig) else ErrMsg(rep.handle))
    ensures r.port.native.p == port.native.p && r.port.native.c == port.native.c
    ensures r.port.readDeadline == port.readDeadline && r.port.writeDeadline == port.writeDeadline
  {
    var mode := OpenMode(opt);
    var opening := ErrMsg(rep.open);
    if opening.Some? then PortStep(port, opening, [SpOpen(mode)])
    else
      var fetching := ErrMsg(rep.getConfig);
      if fetching.Some? then
        var closed := Close(port.native, rep.close);
        PortStep(port.(native := closed.state), fetching, [SpOpen(mode), SpGetConfig] + closed.calls)
      else
        var configured := Configure(port.native, opt, rep);
        var prefix := [SpOpen(mode), SpGetConfig] + configured.calls + [SpGetPortHandle];
        var handling := ErrMsg(rep.handle);
        if handling.Some? then
          var closed := Close(configured.state, rep.close);
          PortStep(port.(native := closed.state), handling, prefix + closed.calls)
        else
          PortStep(port.(native := configured.state.(isOpen := true)), None, prefix + [SpGetPortName])
  }

  /**
    `open` marks the port opened exactly when it succeeds; an `sp_open`
    failure leaves the flag as it was.
   */
  lemma OpenPortOpened(port: Port, opt: Options, rep: OpenReplies)
    ensures var r := OpenPort(port, opt, rep);
      r.port.native.isOpen <==> r.err.None? || (ErrMsg(rep.open).Some? && port.native.isOpen)
  {
  }

  /**
    `open` calls `Close` exactly when `sp_open` succeeded and a later step
    failed, and never frees anything.
   */
  lemma OpenPortReleases(port: Port, opt: Options, rep: OpenReplies)
    ensures var r := OpenPort(port, opt, rep);
      && (!NoCloses(r.calls) <==> ErrMsg(rep.open).None? && r.err.Some?)
      && NoFrees(r.calls)
  {
    var middle := Configure(port.native, opt, rep).calls;
    OpenPortCalls(port, opt, rep);
    OpenTraceReleases(OpenMode(opt), rep, middle, port.native.p);
  }

  /**
    The calls `open` makes, around the calls `middle` of the setters and
    `ApplyConfig`, when closing uses the port pointer `p`.
   */
  function OpenTrace(mode: int, rep: OpenReplies, middle: seq<Call>, p: Option<Handle>): seq<Call> {
    if ErrMsg(rep.open).Some? then [SpOpen(mode)]
    else if ErrMsg(rep.getConfig).Some? then [SpOpen(mode), SpGetConfig, SpClose(p)]
    else if ErrMsg(rep.handle).Some? then [SpOpen(mode), SpGetConfig] + middle + [SpGetPortHandle, SpClose(p)]
    else [SpOpen(mode), SpGetConfig] + middle + [SpGetPortHandle, SpGetPortName]
  }

  lemma OpenPortCalls(port: Port, opt: Options, rep: OpenReplies)
    ensures OpenPort(port, opt, rep).calls
         == OpenTrace(OpenMode(opt), rep, Configure(port.native, opt, rep).calls, port.native.p)
  {
  }

  lemma OpenTraceReleases(mode: int, rep: OpenReplies, middle: seq<Call>, p: Option<Handle>)
    requires NoCloses(middle) && NoFrees(middle)
    ensures var t := OpenTrace(mode, rep, middle, p);
      && (!NoCloses(t) <==> ErrMsg(rep.open).None? && (ErrMsg(rep.getConfig).Some? || ErrMsg(rep.handle).Some?))
      && NoFrees(t)
  {
    var t := OpenTrace(mode, rep, middle, p);
    if ErrMsg(rep.open).None? && ErrMsg(rep.getConfig).None? {
      var prefix := [SpOpen(mode), SpGetConfig] + middle;
      assert NoCloses(prefix) && NoFrees(prefix);
      if ErrMsg(rep.handle).Some? {
        assert t == prefix + [SpGetPortHandle, SpClose(p)];
        assert t[|prefix| + 1].SpClose?;
      } else {
        assert t == prefix + [SpGetPortHandle, SpGetPortName];
      }
    } else if ErrMsg(rep.open).None? {
      assert t[2].SpClose?;
    }
  }

  /**
    The value `open` leaves in field `f`, starting from the device's
    configuration `device`: data bits 8 and stop bits 1 by default, parity
    as given, and the device's own baud rate. The pins follow the flow
    control asked for: RTS/CTS or DTR/DSR under flow control for those
    combinations, otherwise RTS and DTR off and CTS and DSR ignored;
    XON/XOFF enabled both ways for the software combination, otherwise
    disabled. Nothing of the device's pin settings survives.
   */
  function OpenResolved(opt: Options, device: Config, f: Field): int {
    var flow := opt.flowControl;
    match f
    case Baudrate => device.baudrate
    case DataBits => if opt.dataBits == 0 then 8 else opt.dataBits
    case StopBits => if opt.stopBits == 0 then 1 else opt.stopBits
    case Parity => opt.parity
    case Rts => if flow == FlowControlRtsCts then RtsFlowControl else RtsOff
    case Cts => if flow == FlowControlRtsCts then CtsFlowControl else CtsIgnore
    case Dtr => if flow == FlowControlDtrDsr then DtrFlowControl else DtrOff
    case Dsr => if flow == FlowControlDtrDsr then DsrFlowControl else DsrIgnore
    case XonXoff => if flow == FlowControlXonXoff then XonXoffInOut else XonXoffDisabled
  }

  lemma OpenSetterWrites(n: State, opt: Options, codes: seq<int>, f: Field)
    requires |codes| == |OpenSettings(opt)|
    requires forall i :: 0 <= i < |codes| ==> codes[i] == SpOk
    ensures SetAll(n, OpenSettings(opt), codes).state.cache.Get(f) == OpenResolved(opt, n.cache, f)
  {
    SetAllWrites(n, OpenSettings(opt), codes, f);
    OpenSettingsResolved(opt, n.cache, f);
  }

  /** What `open`'s setters resolve each field to is `OpenResolved`. */
  lemma OpenSettingsResolved(opt: Options, device: Config, f: Field)
    ensures Resolved(OpenSettings(opt), f, device.Get(f)) == OpenResolved(opt, device, f)
  {
    OpenSettingsResolve(opt);
    var s := OpenSettings(opt);
    var flow := opt.flowControl;
    assert FlowFor(s) == Some(flow);
    match f {
      case Baudrate =>
      case DataBits =>
      case StopBits =>
      case Parity =>
      case Rts => assert ValueFor(s, Rts) == Some(RtsOff);
      case Dtr => assert ValueFor(s, Dtr) == Some(DtrOff);
      case Cts =>
      case Dsr =>
      case XonXoff =>
    }
  }

  /**
    After a successful `open` whose setters all succeeded, every cached
    field holds the resolved option, the pins as the flow control implies.
   */
  lemma OpenResolvesOptions(port: Port, opt: Options, rep: OpenReplies)
    requires OpenPort(port, opt, rep).err.None?
    requires forall i :: 0 <= i < |OpenCodes(opt, rep)| ==> OpenCodes(opt, rep)[i] == SpOk
    ensures forall f :: OpenPort(port, opt, rep).port.native.cache.Get(f) == OpenResolved(opt, rep.device, f)
  {
    var loaded := port.native.(cache := rep.device);
    assert OpenPort(port, opt, rep).port.native.cache
        == SetAll(loaded, OpenSettings(opt), OpenCodes(opt, rep)).state.cache;
    forall f {
      OpenSetterWrites(loaded, opt, OpenCodes(opt, rep), f);
    }
  }

  /** Whether a trace contains an `sp_set_baudrate` call. */
  predicate SetsBaudrate(calls: seq<Call>) {
    exists i :: 0 <= i < |calls| && calls[i].SpSetBaudrate?
  }

  lemma SetsBaudrateAppend(a: seq<Call>, b: seq<Call>)
    ensures SetsBaudrate(a + b) <==> SetsBaudrate(a) || SetsBaudrate(b)
  {
    if SetsBaudrate(a + b) {
      var i :| 0 <= i < |a + b| && (a + b)[i].SpSetBaudrate?;
      if i >= |a| {
        assert b[i - |a|] == (a + b)[i];
      }
    }
    if SetsBaudrate(a) {
      var i :| 0 <= i < |a| && a[i].SpSetBaudrate?;
      assert (a + b)[i] == a[i];
    }
    if SetsBaudrate(b) {
      var i :| 0 <= i < |b| && b[i].SpSetBaudrate?;
      assert (a + b)[i + |a|] == b[i];
    }
  }

  /**
    `open` calls `sp_set_baudrate` exactly when the port opened, its
    configuration was read, and the requested baud rate is not zero.
   */
  lemma OpenSetsBaudrateOnlyWhenGiven(port: Port, opt: Options, rep: OpenReplies)
    ensures SetsBaudrate(OpenPort(port, opt, rep).calls)
        <==> ErrMsg(rep.open).None? && ErrMsg(rep.getConfig).None? && opt.baudrate != 0
  {
    var middle := Configure(port.native, opt, rep).calls;
    OpenPortCalls(port, opt, rep);
    ConfigureSetsBaudrate(port.native, opt, rep);
    var t := OpenTrace(OpenMode(opt), rep, middle, port.native.p);
    if ErrMsg(rep.open).None? && ErrMsg(rep.getConfig).None? {
      var tail := if ErrMsg(rep.handle).Some? then [SpGetPortHandle, SpClose(port.native.p)] else [SpGetPortHandle, SpGetPortName];
      assert t == [SpOpen(OpenMode(opt)), SpGetConfig] + middle + tail;
      SetsBaudrateAppend([SpOpen(OpenMode(opt)), SpGetConfig], middle);
      SetsBaudrateAppend([SpOpen(OpenMode(opt)), SpGetConfig] + middle, tail);
    }
  }

  /**
    Setter and `ApplyConfig` answers never change what `open` returns or
    whether the port ends up opened.
   */
  lemma OpenIgnoresSetterErrors(port: Port, opt: Options, rep: OpenReplies, other: OpenReplies)
    requires other.open == rep.open && other.getConfig == rep.getConfig && other.device == rep.device
    requires other.handle == rep.handle && other.close == rep.close
    ensures OpenPort(port, opt, other).err == OpenPort(port, opt, rep).err
    ensures OpenPort(port, opt, other).port.native.isOpen == OpenPort(port, opt, rep).port.native.isOpen
  {
  }

  /** The outcome of `Open`: a port or nil, an error or nil, the calls made. */
  datatype Opened = Opened(port: Option<Port>, err: Option<Error>, calls: seq<Call>)

  /**
    `Open(name, opt)`: `PortByName`, then `open`. A lookup failure returns
    before anything is opened; the port is returned only if both succeed.
   */
  function Open(name: string, opt: Options, l: Lookup, rep: OpenReplies): (r: Opened)
    ensures ErrMsg(l.code).Some? ==> r.port.None? && r.err == ErrMsg(l.code) && r.calls == [SpGetPortByName(name)]
    ensures ErrMsg(l.code).None? && ErrMsg(l.configCode).Some? ==>
              r.port.None? && r.err == ErrMsg(l.configCode) && r.calls == [SpGetPortByName(name), SpNewConfig]
    ensures ErrMsg(l.code).None? && ErrMsg(l.configCode).None? ==>
              var attempt := OpenPort(Wrap(Allocated(l)), opt, rep);
              && r.err == attempt.err
              && r.calls == [SpGetPortByName(name), SpNewConfig] + attempt.calls
              && (r.port.Some? ==> r.port.value == attempt.port)
    ensures r.port.Some? <==>
              && ErrMsg(l.code).None? && ErrMsg(l.configCode).None?
              && ErrMsg(rep.open).None? && ErrMsg(rep.getConfig).None? && ErrMsg(rep.handle).None?
    ensures r.port.Some? ==> r.err.None? && r.port.value.native.isOpen && r.port.value.native.p == Some(l.port)
    ensures r.port.None? ==> r.err.Some?
  {
    var found := PortByName(name, l);
    if found.port.None? then Opened(None, found.err, found.calls)
    else
      var attempt := OpenPort(Wrap(found.port.value), opt, rep);
      OpenPortOpened(Wrap(found.port.value), opt, rep);
      if attempt.err.Some? then Opened(None, attempt.err, found.calls + attempt.calls)
      else Opened(Some(attempt.port), None, found.calls + attempt.calls)
  }

  /** What libserialport answers during `ApplyRawConfig`. */
  datatype RawReplies = RawReplies(dataBits: int, parity: int, stopBits: int, flowControl: int, apply: int)

  /** The four setters of this package's raw mode: 8 data bits, no parity, 1 stop bit, no flow control. */
  const RawSettings: seq<Setting> := [
    Setting(DataBits, 8), Setting(Parity, ParityNone), Setting(StopBits, 1), FlowControl(FlowControlNone)]

  function RawCodes(rep: RawReplies): seq<int> {
    [rep.dataBits, rep.parity, rep.stopBits, rep.flowControl]
  }

  /**
    `ApplyRawConfig`: the four setters in order; the first failing one's
    error is returned and `sp_set_config` is never called; otherwise the
    cached configuration is applied and the apply error returned.
   */
  function ApplyRawConfig(port: Port, rep: RawReplies): (r: PortStep)
    ensures r.port.readDeadline == port.readDeadline && r.port.writeDeadline == port.writeDeadline
    ensures r.port.native.p == port.native.p && r.port.native.c == port.native.c
    ensures r.port.native.isOpen == port.native.isOpen
    ensures var k := FirstFailure(RawCodes(rep));
      k < 4 ==> r.err == ErrMsg(RawCodes(rep)[k]) && r.calls == SetterCalls(RawSettings[..k + 1])
    ensures FirstFailure(RawCodes(rep)) == 4 ==>
              r.err == ErrMsg(rep.apply) && r.calls == SetterCalls(RawSettings) + [SpSetConfig(r.port.native.cache)]
  {
    var raw := ApplyRaw(port.native, RawSettings, RawCodes(rep), rep.apply);
    PortStep(port.(native := raw.state), raw.err, raw.calls)
  }

  /**
    When all four setters answer `SP_OK`, raw mode leaves 8 data bits, no
    parity and 1 stop bit, and `SetFlowControl(FLOWCONTROL_NONE)` takes the
    pins out of flow control: CTS and DSR ignored, XON/XOFF disabled, RTS
    and DTR switched on if they were under flow control and otherwise as
    they were. The baud rate is untouched.
   */
  lemma RawConfigWrites(port: Port, rep: RawReplies, f: Field)
    requires rep.dataBits == SpOk && rep.parity == SpOk && rep.stopBits == SpOk && rep.flowControl == SpOk
    ensures var prior := port.native.cache;
      ApplyRawConfig(port, rep).port.native.cache.Get(f)
         == (match f
             case Baudrate => prior.baudrate
             case DataBits => 8
             case Parity => ParityNone
             case StopBits => 1
             case Rts => if prior.rts == RtsFlowControl then RtsOn else prior.rts
             case Dtr => if prior.dtr == DtrFlowControl then DtrOn else prior.dtr
             case Cts => CtsIgnore
             case Dsr => DsrIgnore
             case XonXoff => XonXoffDisabled)
  {
    RawSettingsDistinct();
    ApplyRawAllOk(port.native, RawSettings, RawCodes(rep), rep.apply, f);
    RawValue(f);
  }

  lemma RawSettingsDistinct()
    ensures Distinct(RawSettings) && FlowLast(RawSettings)
  {
  }

  /** The value the raw mode's field setters give each field, if any, and the combination it chooses. */
  lemma RawValue(f: Field)
    ensures ValueFor(RawSettings, f) == (match f
             case DataBits => Some(8)
             case Parity => Some(ParityNone)
             case StopBits => Some(1)
             case _ => None)
    ensures FlowFor(RawSettings) == Some(FlowControlNone)
  {
    RawSettingsDistinct();
    match f {
      case DataBits => ValueForIndex(RawSettings, 0);
      case Parity => ValueForIndex(RawSettings, 1);
      case StopBits => ValueForIndex(RawSettings, 2);
      case _ => ValueForMissing(RawSettings, f);
    }
    FlowForLast(RawSettings);
  }

  /**
    `Read`: with no read deadline, the unbounded file read; otherwise the
    non-blocking or blocking libserialport read the deadline selects, whose
    count becomes the result; with a deadline set an empty buffer panics.
   */
  function Read(port: Port, b: seq<Byte>, now: int, file: FileOutcome, c: Int32): (r: Completion)
    ensures r.IndexPanic? <==> port.readDeadline.At? && |b| == 0
    ensures r.Returned? ==> var plan := Dispatch(port.readDeadline, now);
      && r.result.calls == [TransferCall(Inbound, b, plan)]
      && (plan.Unbounded? ==> r.result.n == file.n && r.result.err == file.err)
      && (!plan.Unbounded? && c >= 0 ==> r.result.n == c && r.result.err.None?)
      && (!plan.Unbounded? && c < 0 ==> r.result.n == 0 && r.result.err == ErrMsg(c))
  {
    Transfer(Inbound, port.readDeadline, now, b, file, c)
  }

  /** `Write`: as `Read`, governed by the write deadline, handing the bytes over. */
  function Write(port: Port, b: seq<Byte>, now: int, file: FileOutcome, c: Int32): (r: Completion)
    ensures r.IndexPanic? <==> port.writeDeadline.At? && |b| == 0
    ensures r.Returned? ==> var plan := Dispatch(port.writeDeadline, now);
      && r.result.calls == [TransferCall(Outbound, b, plan)]
      && (plan.Unbounded? ==> r.result.n == file.n && r.result.err == file.err)
      && (!plan.Unbounded? && c >= 0 ==> r.result.n == c && r.result.err.None?)
      && (!plan.Unbounded? && c < 0 ==> r.result.n == 0 && r.result.err == ErrMsg(c))
  {
    Transfer(Outbound, port.writeDeadline, now, b, file, c)
  }

  /** `SetDeadline`: both deadlines take `t`; nothing else changes; never an error. */
  function SetDeadline(port: Port, t: Deadline): (r: PortStep)
    ensures r.port.readDeadline == t && r.port.writeDeadline == t
    ensures r.port.native == port.native
    ensures r.err.None? && r.calls == []
  {
    PortStep(port.(readDeadline := t, writeDeadline := t), None, [])
  }

  /** `SetReadDeadline`: only the read deadline changes; never an error. */
  function SetReadDeadline(port: Port, t: Deadline): (r: PortStep)
    ensures r.port.readDeadline == t && r.port.writeDeadline == port.writeDeadline
    ensures r.port.native == port.native
    ensures r.err.None? && r.calls == []
  {
    PortStep(port.(readDeadline := t), None, [])
  }

  /** `SetWriteDeadline`: only the write deadline changes; never an error. */
  function SetWriteDeadline(port: Port, t: Deadline): (r: PortStep)
    ensures r.port.writeDeadline == t && r.port.readDeadline == port.readDeadline
    ensures r.port.native == port.native
    ensures r.err.None? && r.calls == []
  {
    PortStep(port.(writeDeadline := t), None, [])
  }

  /** The two directions are independent: a read deadline never affects `Write`, nor a write deadline `Read`. */
  lemma DeadlinesIndependent(port: Port, t: Deadline, b: seq<Byte>, now: int, file: FileOutcome, c: Int32)
    ensures Write(SetReadDeadline(port, t).port, b, now, file, c) == Write(port, b, now, file, c)
    ensures Read(SetWriteDeadline(port, t).port, b, now, file, c) == Read(port, b, now, file, c)
  {
  }

  /** `InputWaiting`: the queued input count, or 0 with `errmsg` of a negative answer. */
  function InputWaiting(c: Int32): (r: Transferred)
    ensures r.calls == [SpInputWaiting]
    ensures c >= 0 ==> r.n == c && r.err.None?
    ensures c < 0 ==> r.n == 0 && r.err == ErrMsg(c)
  {
    FromCount(c, [SpInputWaiting])
  }

  /** `OutputWaiting`: the queued output count, or 0 with `errmsg` of a negative answer. */
  function OutputWaiting(c: Int32): (r: Transferred)
    ensures r.calls == [SpOutputWaiting]
    ensures c >= 0 ==> r.n == c && r.err.None?
    ensures c < 0 ==> r.n == 0 && r.err == ErrMsg(c)
  {
    FromCount(c, [SpOutputWaiting])
  }

  /**
    The buffers a call discards: an `sp_flush` selector from 0 to
    `SP_BUF_BOTH` names the input buffer with bit 1 and the output buffer
    with bit 2. libserialport rejects any other selector with `SP_ERR_ARG`,
    and no other call discards anything.
   */
  function Discarded(c: Call): set<Direction> {
    if c.SpFlush? && 0 <= c.buffers <= BufBoth then
      (if c.buffers % 2 == 1 then {Inbound} else {}) + (if c.buffers / 2 % 2 == 1 then {Outbound} else {})
    else {}
  }

  /** `FlushInput`: one `sp_flush`, discarding the input buffer only. */
  function FlushInput(code: int): (r: Outcome)
    ensures |r.calls| == 1 && r.calls[0].SpFlush? && Discarded(r.calls[0]) == {Inbound}
    ensures r.err == ErrMsg(code)
  {
    Outcome(ErrMsg(code), [SpFlush(BufInput)])
  }

  /** `FlushOutput`: one `sp_flush`, discarding the output buffer only. */
  function FlushOutput(code: int): (r: Outcome)
    ensures |r.calls| == 1 && r.calls[0].SpFlush? && Discarded(r.calls[0]) == {Outbound}
    ensures r.err == ErrMsg(code)
  {
    Outcome(ErrMsg(code), [SpFlush(BufOutput)])
  }

  /** `Flush`: one `sp_flush`, discarding both buffers. */
  function Flush(code: int): (r: Outcome)
    ensures |r.calls| == 1 && r.calls[0].SpFlush? && Discarded(r.calls[0]) == {Inbound, Outbound}
    ensures r.err == ErrMsg(code)
  {
    Outcome(ErrMsg(code), [SpFlush(BufBoth)])
  }

  /** `Sync` is `Flush`: it discards both buffers, it does not wait for output to drain. */
  function Sync(code: int): (r: Outcome)
    ensures r == Flush(code)
    ensures SpDrain !in r.calls && Discarded(r.calls[0]) == {Inbound, Outbound}
  {
    Flush(code)
  }

  /** `Drain`: one `sp_drain`, which waits for output and discards nothing. */
  function Drain(code: int): (r: Outcome)
    ensures r.calls == [SpDrain] && Discarded(r.calls[0]) == {}
    ensures r.err == ErrMsg(code)
  {
    Outcome(ErrMsg(code), [SpDrain])
  }

  /**
    The buffer operations partition the work: `Flush` discards exactly
    what `FlushInput` and `FlushOutput` discard between them, those two
    never overlap, and only `Drain` waits.
   */
  lemma FlushPartition(code: int)
    ensures Discarded(Flush(code).calls[0]) == Discarded(FlushInput(code).calls[0]) + Discarded(FlushOutput(code).calls[0])
    ensures Discarded(FlushInput(code).calls[0]) !! Discarded(FlushOutput(code).calls[0])
    ensures SpDrain !in Flush(code).calls + FlushInput(code).calls + FlushOutput(code).calls
    ensures SpDrain in Drain(code).calls
  {
  }

  /** The lifecycle-relevant operations a caller can issue on a port. */
  datatype Op =
    | OpenOp(opt: Options, rep: OpenReplies)
    | CloseOp(code: int)
    | FreeOp
    | SetOp(setting: Setting, code: int)
    | ApplyOp(code: int)
    | RawOp(raw: RawReplies)
    | DeadlineOp(t: Deadline)

  function Perform(port: Port, op: Op): PortStep {
    match op
    case OpenOp(opt, rep) => OpenPort(port, opt, rep)
    case CloseOp(code) =>
      var s := Native.Close(port.native, code); PortStep(port.(native := s.state), s.err, s.calls)
    case FreeOp =>
      var s := Free(port.native); PortStep(port.(native := s.state), s.err, s.calls)
    case SetOp(setting, code) =>
      var s := Set(port.native, setting, code); PortStep(port.(native := s.state), s.err, s.calls)
    case ApplyOp(code) =>
      var s := ApplyConfig(port.native, code); PortStep(port.(native := s.state), s.err, s.calls)
    case RawOp(raw) => ApplyRawConfig(port, raw)
    case DeadlineOp(t) => SetDeadline(port, t)
  }

  /** Runs `ops` in order; the result carries the final port and every call made. */
  function Run(port: Port, ops: seq<Op>): PortStep
    decreases |ops|
  {
    if ops == [] then PortStep(port, None, [])
    else
      var first := Perform(port, ops[0]);
      var rest := Run(first.port, ops[1..]);
      PortStep(rest.port, rest.err, first.calls + rest.calls)
  }

  lemma PerformAccounted(port: Port, op: Op)
    ensures Accounted(port.native, Perform(port, op).port.native, Perform(port, op).calls)
  {
    match op
    case OpenOp(opt, rep) =>
      var r := OpenPort(port, opt, rep);
      OpenPortReleases(port, opt, rep);
      KeepsHandles(port.native, r.port.native, r.calls);
    case CloseOp(code) =>
      var r := Native.Close(port.native, code);
      KeepsHandles(port.native, r.state, r.calls);
    case FreeOp => FreeAccounted(port.native);
    case SetOp(setting, code) =>
      var r := Set(port.native, setting, code);
      KeepsHandles(port.native, r.state, r.calls);
    case ApplyOp(code) =>
      var r := ApplyConfig(port.native, code);
      KeepsHandles(port.native, r.state, r.calls);
    case RawOp(raw) =>
      var r := ApplyRaw(port.native, RawSettings, RawCodes(raw), raw.apply);
      ApplyRawReleases(port.native, RawSettings, RawCodes(raw), raw.apply);
      KeepsHandles(port.native, r.state, r.calls);
    case DeadlineOp(t) =>
      KeepsHandles(port.native, port.native, []);
  }

  lemma {:induction false} RunAccounted(port: Port, ops: seq<Op>)
    ensures Accounted(port.native, Run(port, ops).port.native, Run(port, ops).calls)
    decreases |ops|
  {
    if ops == [] {
      KeepsHandles(port.native, port.native, []);
    } else {
      var first := Perform(port, ops[0]);
      PerformAccounted(port, ops[0]);
      RunAccounted(first.port, ops[1..]);
      AccountedChain(port.native, first.port.native, Run(port, ops).port.native, first.calls, Run(first.port, ops[1..]).calls);
    }
  }

  /**
    Whatever a caller does to a port, in whatever order and with whatever
    answers, its `sp_port` and its `sp_port_config` are each freed at most
    once.
   */
  lemma ReleasedAtMostOnce(port: Port, ops: seq<Op>)
    ensures Count(Run(port, ops).calls, FreePort) <= 1
    ensures Count(Run(port, ops).calls, FreeConfig) <= 1
  {
    RunAccounted(port, ops);
  }
}

=== FILE: serialport.dfy ===
/**
  Package `serialport` (serialport.go): the same native port without
  deadlines, opened with a bare mode, and a raw mode that also fixes every
  pin setting.
 */
module Serialport {
  import opened Wrappers
  import opened Provider
  import opened Status
  import opened Native
  import opened Registry

  /** `serialport.SerialPort` holds only the native state. */
  type SerialPort = State

  /** serialport.go walks the port list through a `*[1 << 30]` array. */
  const ArrayBound: nat := 0x4000_0000

  /**
    `ListPorts`: the ports before the null terminator, copied and wrapped in
    list order, or nil with the first error.
   */
  method ListPorts(listCode: int, list: seq<Option<Handle>>, replies: seq<CopyReply>)
    returns (ports: Option<seq<SerialPort>>, err: Option<Error>, calls: seq<Call>)
    requires listCode == SpOk ==> Terminated(list, ArrayBound) && |replies| >= NullIndex(list)
    ensures listCode != SpOk ==> ports.None? && err == ErrMsg(listCode) && calls == [SpListPorts]
    ensures ports.Some? <==> listCode == SpOk && AllCopied(replies, NullIndex(list))
    ensures ports.Some? ==> err.None? && |ports.value| == NullIndex(list)
    ensures ports.Some? ==> forall j :: 0 <= j < |ports.value| ==> ports.value[j] == Wrapped(replies[j])
    ensures ports.Some? ==> calls == [SpListPorts] + CopyCalls(list, NullIndex(list)) + [SpFreePortList]
    ensures listCode == SpOk ==> |calls| >= 2 && calls[0] == SpListPorts && calls[|calls| - 1] == SpFreePortList
    ensures listCode == SpOk && ports.None? ==>
              var k := FirstFailedCopy(replies, NullIndex(list));
              && k < NullIndex(list) && err == CopyError(replies[k]) && err.Some?
              && calls == [SpListPorts] + CopyCalls(list, k) + FailedCopyCalls(list[k].value, replies[k]) + [SpFreePortList]
  {
    ports, err, calls := Registry.ListPorts(ArrayBound, listCode, list, replies);
  }

  /** What libserialport answers during `OpenWithMode`. */
  datatype OpenReplies = OpenReplies(open: int, getConfig: int, device: Config, handle: int, close: int)

  /**
    `OpenWithMode`: `sp_open` with the caller's flags, `sp_get_config`,
    `sp_get_port_handle`. An `sp_open` failure returns at once without
    `Close`; a later failure calls `Close` and returns its own error; the
    port is marked opened only when all three succeed. No setting is changed.
   */
  function OpenWithMode(n: SerialPort, flags: nat, rep: OpenReplies): (r: Step)
    ensures |r.calls| > 0 && r.calls[0] == SpOpen(flags)
    ensures ErrMsg(rep.open).Some? ==> r.state == n && r.err == ErrMsg(rep.open) && |r.calls| == 1
    ensures r.err.None? <==> ErrMsg(rep.open).None? && ErrMsg(rep.getConfig).None? && ErrMsg(rep.handle).None?
    ensures ErrMsg(rep.open).None? && r.err.Some? ==>
              r.err == (if ErrMsg(rep.getConfig).Some? then ErrMsg(rep.getConfig) else ErrMsg(rep.handle))
    ensures r.state.isOpen <==> r.err.None? || (ErrMsg(rep.open).Some? && n.isOpen)
    ensures !NoCloses(r.calls) <==> ErrMsg(rep.open).None? && r.err.Some?
    ensures NoFrees(r.calls)
    ensures r.state.p == n.p && r.state.c == n.c
    ensures r.err.None? ==> r.state.cache == rep.device
    ensures forall i :: 0 <= i < |r.calls| ==>
              !r.calls[i].SpSetBaudrate? && !r.calls[i].SpSetConfigField? && !r.calls[i].SpSetConfigFlowControl?
  {
    var opening := ErrMsg(rep.open);
    if opening.Some? then Step(n, opening, [SpOpen(flags)])
    else
      var fetching := ErrMsg(rep.getConfig);
      if fetching.Some? then
        var closed := Close(n, rep.close);
        assert ([SpOpen(flags), SpGetConfig] + closed.calls)[2].SpClose?;
        Step(closed.state, fetching, [SpOpen(flags), SpGetConfig] + closed.calls)
      else
        var loaded := n.(cache := rep.device);
        var handling := ErrMsg(rep.handle);
        if handling.Some? then
          var closed := Close(loaded, rep.close);
          assert ([SpOpen(flags), SpGetConfig, SpGetPortHandle] + closed.calls)[3].SpClose?;
          Step(closed.state, handling, [SpOpen(flags), SpGetConfig, SpGetPortHandle] + closed.calls)
        else
          Step(loaded.(isOpen := true), None, [SpOpen(flags), SpGetConfig, SpGetPortHandle, SpGetPortName])
  }

  /** The outcome of `Open`: a port or nil, an error or nil, the calls made. */
  datatype Opened = Opened(port: Option<SerialPort>, err: Option<Error>, calls: seq<Call>)

  /**
    `Open(name)`: `PortByName`, then `Open()`, which is `OpenWithMode` with
    `MODE_READ | MODE_WRITE`. A lookup failure returns before any open is
    attempted; the port is returned only if both succeed.
   */
  function Open(name: string, l: Lookup, rep: OpenReplies): (r: Opened)
    ensures ErrMsg(l.code).Some? ==> r.port.None? && r.err == ErrMsg(l.code) && r.calls == [SpGetPortByName(name)]
    ensures ErrMsg(l.code).None? && ErrMsg(l.configCode).Some? ==>
              r.port.None? && r.err == ErrMsg(l.configCode) && r.calls == [SpGetPortByName(name), SpNewConfig]
    ensures ErrMsg(l.code).None? && ErrMsg(l.configCode).None? ==>
              var attempt := OpenWithMode(Allocated(l), ModeReadWrite, rep);
              && r.err == attempt.err
              && r.calls == [SpGetPortByName(name), SpNewConfig] + attempt.calls
              && (r.port.Some? ==> r.port.value == attempt.state)
    ensures r.port.Some? <==>
              && ErrMsg(l.code).None? && ErrMsg(l.configCode).None?
              && ErrMsg(rep.open).None? && ErrMsg(rep.getConfig).None? && ErrMsg(rep.handle).None?
    ensures r.port.Some? ==> r.err.None? && r.port.value.isOpen && r.port.value.p == Some(l.port)
    ensures r.port.None? ==> r.err.Some?
  {
    var found := PortByName(name, l);
    if found.port.None? then Opened(None, found.err, found.calls)
    else
      var attempt := OpenWithMode(found.port.value, ModeReadWrite, rep);
      if attempt.err.Some? then Opened(None, attempt.err, found.calls + attempt.calls)
      else Opened(Some(attempt.state), None, found.calls + attempt.calls)
  }

  /** What libserialport answers during `ApplyRawConfig`, setter by setter. */
  datatype RawReplies = RawReplies(
    dataBits: int, parity: int, stopBits: int, rts: int, cts: int, dtr: int, dsr: int,
    xonXoff: int, flowControl: int, apply: int)

  /**
    The nine setters of this package's raw mode: 8 data bits, no parity, 1
    stop bit, RTS off, CTS ignored, DTR off, DSR ignored, XON/XOFF disabled,
    no flow control.
   */
  const RawSettings: seq<Setting> := [
    Setting(DataBits, 8), Setting(Parity, ParityNone), Setting(StopBits, 1),
    Setting(Rts, RtsOff), Setting(Cts, CtsIgnore), Setting(Dtr, DtrOff), Setting(Dsr, DsrIgnore),
    Setting(XonXoff, XonXoffDisabled), FlowControl(FlowControlNone)]

  function RawCodes(rep: RawReplies): seq<int> {
    [rep.dataBits, rep.parity, rep.stopBits, rep.rts, rep.cts, rep.dtr, rep.dsr, rep.xonXoff, rep.flowControl]
  }

  /**
    `ApplyRawConfig`: the nine setters in order; the first failing one's
    error is returned and `sp_set_config` is never called; otherwise the
    cached configuration is applied and the apply error returned.
   */
  function ApplyRawConfig(n: SerialPort, rep: RawReplies): (r: Step)
    ensures r.state.p == n.p && r.state.c == n.c && r.state.isOpen == n.isOpen
    ensures var k := FirstFailure(RawCodes(rep));
      k < 9 ==> r.err == ErrMsg(RawCodes(rep)[k]) && r.calls == SetterCalls(RawSettings[..k + 1])
    ensures FirstFailure(RawCodes(rep)) == 9 ==>
              r.err == ErrMsg(rep.apply) && r.calls == SetterCalls(RawSettings) + [SpSetConfig(r.state.cache)]
  {
    ApplyRaw(n, RawSettings, RawCodes(rep), rep.apply)
  }

  /**
    When all nine setters answer `SP_OK`, raw mode leaves the cached
    configuration 8-N-1 with every pin setting off, ignored or disabled, and
    only the baud rate as it was: the flow-control setter runs last and
    keeps the values the pin setters wrote.
   */
  lemma RawConfigWrites(n: SerialPort, rep: RawReplies, f: Field)
    requires forall i :: 0 <= i < 9 ==> RawCodes(rep)[i] == SpOk
    ensures ApplyRawConfig(n, rep).state.cache.Get(f)
         == (match f
             case Baudrate => n.cache.baudrate
             case DataBits => 8
             case Parity => ParityNone
             case StopBits => 1
             case Rts => RtsOff
             case Cts => CtsIgnore
             case Dtr => DtrOff
             case Dsr => DsrIgnore
             case XonXoff => XonXoffDisabled)
  {
    RawSettingsDistinct();
    ApplyRawAllOk(n, RawSettings, RawCodes(rep), rep.apply, f);
    RawValue(f);
  }

  lemma RawSettingsDistinct()
    ensures Distinct(RawSettings) && FlowLast(RawSettings)
  {
  }

  /**
    The value the raw mode's field setters give each field, none for the
    baud rate, and the combination it chooses.
   */
  lemma RawValue(f: Field)
    ensures f == Baudrate ==> ValueFor(RawSettings, f).None?
    ensures f != Baudrate ==> ValueFor(RawSettings, f) == Some(match f
             case DataBits => 8
             case Parity => ParityNone
             case StopBits => 1
             case Rts => RtsOff
             case Cts => CtsIgnore
             case Dtr => DtrOff
             case Dsr => DsrIgnore
             case _ => XonXoffDisabled)
    ensures FlowFor(RawSettings) == Some(FlowControlNone)
  {
    RawSettingsDistinct();
    match f {
      case Baudrate => ValueForMissing(RawSettings, f);
      case DataBits => ValueForIndex(RawSettings, 0);
      case Parity => ValueForIndex(RawSettings, 1);
      case StopBits => ValueForIndex(RawSettings, 2);
      case Rts => ValueForIndex(RawSettings, 3);
      case Cts => ValueForIndex(RawSettings, 4);
      case Dtr => ValueForIndex(RawSettings, 5);
      case Dsr => ValueForIndex(RawSettings, 6);
      case XonXoff => ValueForIndex(RawSettings, 7);
    }
    FlowForLast(RawSettings);
  }

  /** When all nine setters answer `SP_OK`, the configuration they leave is applied. */
  lemma RawConfigApplied(n: SerialPort, rep: RawReplies)
    requires forall i :: 0 <= i < 9 ==> RawCodes(rep)[i] == SpOk
    ensures ApplyRawConfig(n, rep).calls == SetterCalls(RawSettings) + [SpSetConfig(ApplyRawConfig(n, rep).state.cache)]
    ensures ApplyRawConfig(n, rep).err == ErrMsg(rep.apply)
  {
    assert FirstFailure(RawCodes(rep)) == 9;
  }

  /** The lifecycle-relevant operations a caller can issue on a port. */
  datatype Op =
    | OpenOp(flags: nat, rep: OpenReplies)
    | CloseOp(code: int)
    | FreeOp
    | SetOp(setting: Setting, code: int)
    | ApplyOp(code: int)
    | RawOp(raw: RawReplies)

  function Perform(n: SerialPort, op: Op): Step {
    match op
    case OpenOp(flags, rep) => OpenWithMode(n, flags, rep)
    case CloseOp(code) => Close(n, code)
    case FreeOp => Free(n)
    case SetOp(setting, code) => Set(n, setting, code)
    case ApplyOp(code) => ApplyConfig(n, code)
    case RawOp(raw) => ApplyRawConfig(n, raw)
  }

  /** Runs `ops` in order; the result carries the final port and every call made. */
  function Run(n: SerialPort, ops: seq<Op>): Step
    decreases |ops|
  {
    if ops == [] then Step(n, None, [])
    else
      var first := Perform(n, ops[0]);
      var rest := Run(first.state, ops[1..]);
      Step(rest.state, rest.err, first.calls + rest.calls)
  }

  lemma PerformAccounted(n: SerialPort, op: Op)
    ensures Accounted(n, Perform(n, op).state, Perform(n, op).calls)
  {
    match op
    case OpenOp(flags, rep) =>
      var r := OpenWithMode(n, flags, rep);
      KeepsHandles(n, r.state, r.calls);
    case CloseOp(code) =>
      var r := Close(n, code);
      KeepsHandles(n, r.state, r.calls);
    case FreeOp => FreeAccounted(n);
    case SetOp(setting, code) =>
      var r := Set(n, setting, code);
      KeepsHandles(n, r.state, r.calls);
    case ApplyOp(code) =>
      var r := ApplyConfig(n, code);
      KeepsHandles(n, r.state, r.calls);
    case RawOp(raw) =>
      var r := ApplyRawConfig(n, raw);
      ApplyRawReleases(n, RawSettings, RawCodes(raw), raw.apply);
      KeepsHandles(n, r.state, r.calls);
  }

  lemma {:induction false} RunAccounted(n: SerialPort, ops: seq<Op>)
    ensures Accounted(n, Run(n, ops).state, Run(n, ops).calls)
    decreases |ops|
  {
    if ops == [] {
      KeepsHandles(n, n, []);
    } else {
      var first := Perform(n, ops[0]);
      PerformAccounted(n, ops[0]);
      RunAccounted(first.state, ops[1..]);
      AccountedChain(n, first.state, Run(n, ops).state, first.calls, Run(first.state, ops[1..]).calls);
    }
  }

  /**
    Whatever a caller does to a port, its `sp_port` and its
    `sp_port_config` are each freed at most once.
   */
  lemma ReleasedAtMostOnce(n: SerialPort, ops: seq<Op>)
    ensures Count(Run(n, ops).calls, FreePort) <= 1
    ensures Count(Run(n, ops).calls, FreeConfig) <= 1
  {
    RunAccounted(n, ops);
  }
}

=== FILE: status.dfy ===
/** The bindings' error values and `errmsg`, the map from libserialport status codes to them. */
module Status {
  import opened Wrappers
  import opened Provider

  /**
    The four errors `errmsg` can produce, plus whatever `os.File` reports on
    the deadline-free read and write path (opaque to the model).
   */
  datatype Error =
    | InvalidArgumentsError
    | SystemError
    | MemoryAllocationError
    | UnsupportedOperationError
    | FileError(reason: string)

  /** The status code an error stands for; file errors stand for none. */
  function ErrorCode(e: Error): Option<int> {
    match e
    case InvalidArgumentsError => Some(SpErrArg)
    case SystemError => Some(SpErrFail)
    case MemoryAllocationError => Some(SpErrMem)
    case UnsupportedOperationError => Some(SpErrSupp)
    case FileError(_) => None
  }

  /**
    `errmsg`: total over all codes. Only the four listed error codes produce
    an error; `SP_OK`, every positive value and every other negative value
    yield nil.
   */
  function ErrMsg(code: int): (r: Option<Error>)
    ensures r.Some? <==> code in {SpErrArg, SpErrFail, SpErrMem, SpErrSupp}
    ensures r.Some? ==> ErrorCode(r.value) == Some(code)
  {
    if code == SpErrArg then Some(InvalidArgumentsError)
    else if code == SpErrFail then Some(SystemError)
    else if code == SpErrMem then Some(MemoryAllocationError)
    else if code == SpErrSupp then Some(UnsupportedOperationError)
    else None
  }

  /** `ErrMsg` and `ErrorCode` are inverse: each error comes from exactly one code. */
  lemma ErrMsgInverse(code: int, e: Error)
    ensures ErrMsg(code) == Some(e) <==> ErrorCode(e) == Some(code)
  {
  }

  /** A negative code libserialport does not define is silently reported as success. */
  lemma UnknownNegativeIsNil(code: int)
    requires code < SpErrSupp
    ensures ErrMsg(code).None?
  {
  }
}

=== FILE: wrappers.dfy ===
/** Optional values, standing in for Go's nil-able pointers and `error`s. */
module Wrappers {

  datatype Option<+T> = None | Some(value: T)
}
